=== FILE: README.md ===
# CyberRip funeral home — a Dafny model of its core

CyberRip is a small top-down browser game set in a funeral home. The player
walks a tile map, sits on pews and talks to a receptionist to file a "funeral
application". A ceremony director then holds the queued funerals one at a
time: preaching, amen, burial, then into the history. This project models the
parts of the game that hold logic, as pure Dafny functions, methods and
lemmas:

- `Director` (director.dfy). This is the ceremony state machine of
  `useFuneralSystem`: a queue, an active ceremony, a history and a phase.
  - The effect's synchronous branch is `Evaluate`. The timer callbacks are
    `Timeout`. `addFuneral` is `AddFuneral`, and `Submit` is the form's guard.
  - `AppTimeout` is the older copy in App.tsx, which forgets buried ceremonies.
  - Timers are discrete events. The events of a run are folded by `Run`.
- `Movement` (movement.dfy). This is the per-frame movement of App.tsx:
  - held keys become a direction;
  - the four-corner hitbox collision test;
  - axis-by-axis collision resolution, so the player slides along walls;
  - the facing rule;
  - the key handlers that break sitting.
- `Interaction` (interaction.dfy). This is the interaction resolver:
  - `Interact` is `handleInteract` of Game.tsx; `AppInteract` is
    `checkInteraction` of App.tsx;
  - the search for the nearest registered interactable within 60 pixels;
  - the dispatch on its kind;
  - sitting down and standing up.
- `MapGen` (mapgen.dfy). This is `generateMap`, which builds the map:
  - rectangle drawing and single placements;
  - the random scatter of tombstones, trees and flowers;
  - the paths, the chapel with its pews and priest, and the reception room
    with its doors, desk, notice board and waiting chairs.
- Supporting modules:
  - `Types` (types.dfy) holds the entities.
  - `Grid` (grid.dfy) holds the tile grid and the registry of interactables.
    The registry is a string-keyed record, kept in `Object.entries` order.
  - `Text` (text.dfy) holds the string operations the source relies on:
    decimal formatting of `${row},${col}`, `Number()` on digit strings,
    `split` and `toLowerCase`.

Central facts proved:

- **Service conservation.** History read backwards, then the active
  ceremony, then the queue, is always the initial record followed by every
  submission, in the order the eulogy requests resolve. This holds across any
  sequence of evaluations, timeouts and submissions (`Director.RunFromInitial`). The App.tsx copy
  loses the buried record (`Director.AppTimeoutDropsBuried`).
- **Collision.** The hitbox test is equivalent to "the hitbox rectangle meets
  a wall or out-of-map cell". Movement never takes a non-blocked player into
  a blocked position (`Movement.Resolve`, `Movement.Tick`).
- **Nearest interactable.** The search returns exactly the unique entry
  within range that is strictly nearer than all earlier entries and no
  farther than all later ones. It returns nothing exactly when no entry is
  in range (`Interaction.Nearest`, `Interaction.NearestIff`).
- **Map keys round-trip.** Every key the generator writes parses back to its
  cell. Every chair id names the cell it is registered under. So sitting on
  any generated chair seats the player 10 pixels above the cell that chair
  is registered under (`MapGen.GenerateMap`, `MapGen.SitOnRegisteredChair`).

Ambient inputs are parameters:

- `Date.now()` is `now`/`id`.
- `Math.random()` is the function `rand` over cells.
- The eulogy text returned by the remote generator is `eulogy`.
- `MOVEMENT_SPEED / sqrt 2` is `diagStep`.

## Model

| member | source | states |
|---|---|---|
| Director.Evaluate | hooks/useFuneralSystem.ts:39-45 | An Idle director with no active ceremony and a non-empty queue promotes the queue head to active and enters Preaching. Otherwise Idle is left as is with no timer pending. A non-Idle phase is untouched. |
| Director.Timeout | hooks/useFuneralSystem.ts:46-57 | Each timer moves the phase one step (Preaching to Amen to Burial to Idle) and keeps the queue. Only the burial timer clears the active ceremony, and it prepends that ceremony to the history. |
| Director.AddFuneral | hooks/useFuneralSystem.ts:22-33 | The queue grows by exactly one record at its tail, carrying the given name, cause and eulogy with zero attendees. The earlier queue, the phase, the active ceremony and the history are unchanged. |
| Director.Submit | App.tsx:595-599 | A submission with an empty name or cause changes nothing. Otherwise it is exactly `addFuneral` with those fields. |
| Director.EvaluateServed | hooks/useFuneralSystem.ts:39-45 | Promoting the queue head keeps the served order: the head moves from the queue to the active slot in place. |
| Director.TimeoutServed | hooks/useFuneralSystem.ts:46-57 | No timer changes the served order. Ending a burial moves the record to the front of the history, which is read reversed. |
| Director.AddServed | hooks/useFuneralSystem.ts:22-33 | `addFuneral` appends exactly its new record at the end of the served order. |
| Director.StepServed | hooks/useFuneralSystem.ts:32-57 | For every event, the served order (reversed history, active ceremony, queue) grows only by the record the event submits. |
| Director.StepConservesContents | hooks/useFuneralSystem.ts:32-57 | No event loses or duplicates a record. The multiset of records held grows by one on a submission and is unchanged otherwise. |
| Director.StepInv | hooks/useFuneralSystem.ts:39-57 | Every event keeps "a ceremony is active exactly when the phase is not Idle". |
| Director.StepPhaseOrder | hooks/useFuneralSystem.ts:39-57 | From a consistent state, an event either keeps the phase or moves it to its successor in the Idle, Preaching, Amen, Burial cycle. |
| Director.EvaluateIdempotent | hooks/useFuneralSystem.ts:39-45 | Re-running the effect's synchronous branch on its own result changes nothing. |
| Director.EvaluateSettles | hooks/useFuneralSystem.ts:39-45 | After the effect runs on a consistent state, the director is never Idle with a waiting queue. |
| Director.Step | hooks/useFuneralSystem.ts:32-57 | One event either keeps the phase or moves it to its successor, and records are only ever added at the front of the history, never removed from it. |
| Director.Run | hooks/useFuneralSystem.ts:53-56 | Over any run of events, the history before the run is a suffix of the history after it. |
| Director.RunFromInitial | hooks/useFuneralSystem.ts:6-19 | From the initial state, after any events, the invariant holds. The served order is the initial record followed by the added records, in the order their `addFuneral` calls completed. |
| Director.RunServed | hooks/useFuneralSystem.ts:32-57 | From any consistent state, a run appends exactly the added records, in the order they were added, to the served order. |
| Director.HistoryOrder | hooks/useFuneralSystem.ts:54 | History is the newest-first list of a prefix of the order records were added in (starting with the initial record), and it is never longer than that order. |
| Director.AppTimeout | App.tsx:121-139 | The App.tsx timers move the phase the same way and keep the queue and the history. The burial timer clears the active ceremony. |
| Director.AppTimeoutDropsBuried | App.tsx:133-139 | Ending a burial in App.tsx loses the buried record from everything the director holds. The hook's version keeps it. |
| Grid.TileAt | App.tsx:217-218 | A cell has a tile exactly when it lies inside the map. |
| Grid.Lookup | utils/mapGenerator.ts:6 | A key reads as present exactly when it is one of the registry's keys. |
| Grid.Upsert | utils/mapGenerator.ts:24 | Assigning an existing key keeps the key order; a new key is appended. Unique keys stay unique. Every entry is either the new one or an old one in its old place. |
| Grid.UpsertLookup | utils/mapGenerator.ts:24 | After an assignment, the assigned key reads as the new item and every other key reads as before. |
| Grid.ParseKeyFields | Game.tsx:48 | A key reads as a cell exactly through its first two comma-separated fields, both digit strings, taken as row then column. A key without a comma reads as no cell. |
| Grid.ParseCellKey | Game.tsx:48 | A key the generator writes for a cell splits and parses back to that row and column. |
| Grid.CellKeyInjective | utils/mapGenerator.ts:24 | Two cells have the same registry key exactly when they are the same cell. |
| Text.NatToString | utils/mapGenerator.ts:24 | The decimal rendering of a number is a non-empty string of digits. |
| Text.ParseNat | Game.tsx:48 | `Number()` of a string yields a natural number exactly when the string is a non-empty run of digits. |
| Text.ParseFormatRoundTrip | Game.tsx:48 | Parsing the decimal rendering of a number gives the number back. |
| Text.FormatInjective | utils/mapGenerator.ts:24 | Two numbers with the same decimal rendering are equal. |
| Text.Split | Game.tsx:48 | Splitting yields at least one piece, and no piece contains the separator. |
| Text.JoinSplit | Game.tsx:48 | Re-joining the pieces of a split with the separator gives the original string. |
| Text.SplitJoin | Game.tsx:48 | Splitting a join of separator-free pieces gives the pieces back. |
| Movement.Blocked | App.tsx:205-223 | A position whose hitbox sticks out past any edge of the map is blocked: left edge at x + 12, right edge at x + 36, top edge at y + 24, bottom edge at y + 44. |
| Movement.BlockedIffHitboxMeetsBlockingCell | App.tsx:205-222 | Testing the hitbox's four corners is blocked exactly when some cell the hitbox spans is a wall or lies outside the map. |
| Movement.OnlyWallsMatter | App.tsx:217-220 | Two grids with the same walls give the same collision verdict everywhere. No other tile kind, chairs included, blocks. |
| Movement.Direction | App.tsx:185-189 | Each axis is +1 or -1 exactly when a key for that way is held and none for the opposite way. Otherwise it is 0. |
| Movement.MoveKeysAreDirectionKeys | App.tsx:155 | The keys that pop the player out of a chair are exactly the single keys that produce movement. |
| Movement.Resolve | App.tsx:225-229 | Each axis either keeps the old coordinate or takes the new one. The horizontal move is taken exactly when it is free; when blocked the column stays. The vertical move is taken exactly when it is free from the resolved column; when blocked the row stays. A free starting position never leads to a blocked one. |
| Movement.SlideAlongWall | App.tsx:228-229 | A horizontal move into a wall keeps the column and still performs a free vertical move. |
| Movement.Face | App.tsx:231-233 | Facing follows the strictly dominant axis horizontally, otherwise the vertical sign. It is unchanged when there is no movement. |
| Movement.Velocity | App.tsx:191-196 | A straight move has speed 4 along its axis, and a diagonal move goes `diagStep` along each axis. An axis with no key held stays still, and with a positive diagonal step every axis keeps its sign. |
| Movement.VelocityFacing | App.tsx:192-233 | The facing computed from the normalised velocity is the facing computed from the unit direction, so choosing the facing before or after normalising gives the same answer. |
| Movement.FaceScaleInvariant | App.tsx:192-196 | Scaling the move vector by any positive speed does not change the facing it produces. |
| Movement.Tick | App.tsx:172-242 | With a modal open or while sitting, nothing changes. With no direction held, only `moving` clears. Otherwise the player moves by the resolved position, faces the dominant axis and is moving. A free position stays free. |
| Movement.KeyDown | App.tsx:152-157 | The lower-cased key joins the held set. A seated player pressing a movement key stands up 10 pixels lower, and any other key leaves the player as is. |
| Movement.KeyUp | App.tsx:159 | The lower-cased key is no longer held, every other held key still is, and nothing is added. |
| Movement.KeyUpUndoesKeyDown | App.tsx:152-159 | Releasing a key that was not held before it was pressed gives back the held set from before the press. |
| Interaction.SquaredDistance | Game.tsx:43-50 | The squared distance between the player's centre and a cell's centre is never negative. It is zero exactly when the player stands at that cell's top-left corner, (col * 48, row * 48). |
| Interaction.Nearest | Game.tsx:43-52 | The search finds nothing exactly when no key lies strictly within 60 pixels. Otherwise it finds the in-range entry strictly nearer than all earlier entries and no farther than all later ones. |
| Interaction.NearestUnique | Game.tsx:47-51 | At most one entry meets the nearest-entry description. |
| Interaction.NearestIff | Game.tsx:43-52 | The search picks an entry if and only if that entry is the nearest one in range. |
| Interaction.ParseChairIdFields | Game.tsx:73 | A chair id reads as a cell exactly through its second and third `_`-separated fields, both digit strings, taken as row then column. An id without `_` reads as no cell. |
| Interaction.ParseChairIdOf | Game.tsx:73 | A chair id of the form `prefix_row_col` parses to its row and column. |
| Interaction.SitAt | Game.tsx:74 | The seated player is sitting, not moving and faces as given. Its centre is exactly 10 pixels from the chair cell's centre, because it is drawn 10 pixels higher. |
| Interaction.StandUp | Game.tsx:38 | The player stops sitting and moves 10 pixels down. The column, facing and moving flag are kept. |
| Interaction.StandUpFromChair | Game.tsx:74 | Standing up right after sitting on a chair puts the player exactly on the chair's cell. |
| Interaction.Dispatch | Game.tsx:57-78 | The receptionist opens the application and the notice board opens the history; a chair seats the player on its cell, facing right and not moving; any other kind shows its message when it has a non-empty one. |
| Interaction.Interact | Game.tsx:33-54 | Any key other than F, or an open modal, does nothing. A seated player stands up. With nothing in range nothing happens. Otherwise the nearest entry is dispatched on. |
| Interaction.AppInteract | App.tsx:259-301 | A seated player stands up. Otherwise, with the nearest entry: the priest opens the application, a chair seats the player facing down, and any other kind does nothing. Nothing else is ever opened. |
| MapGen.PaintIsLoop | utils/mapGenerator.ts:10-18 | Painting the rectangle cell by cell on the canvas is the same grid as the source's nested row and column loop. |
| MapGen.DrawRect | utils/mapGenerator.ts:9-19 | Cells outside the rectangle are unchanged. With a border, its edge cells become WALL. Every other cell inside becomes the given tile. |
| MapGen.Place | utils/mapGenerator.ts:22-25 | Only the given cell changes, to the given tile. The interactable, when present, is registered under `${row},${col}` and every other key reads as before. The registry keeps unique keys and chair ids that match their keys. |
| MapGen.Register | utils/mapGenerator.ts:77 | A direct registry assignment makes the key read as the item, leaves the other keys alone and keeps the registry well keyed. |
| MapGen.Scatter | utils/mapGenerator.ts:29-41 | Outside the interior nothing changes. A cell that changes was grass in the edge band and becomes a tombstone, tree or flower. |
| MapGen.ScatterThresholds | utils/mapGenerator.ts:35-39 | An edge grass cell becomes a tombstone below 0.08, a tree below 0.12 and a flower below 0.15, and stays grass otherwise. |
| MapGen.Paths | utils/mapGenerator.ts:44-47 | Every cell of the four path rectangles becomes PATH, for example the bottom path at columns 18 to 21, rows 24 to 29. Every other cell is unchanged. |
| MapGen.ChairAtMatches | utils/mapGenerator.ts:71-73 | A chair placed at a cell carries an id naming that same cell. |
| MapGen.PlacePew | utils/mapGenerator.ts:71 | The pew cell becomes BENCH and its key reads as the chair `pew_y_x`. No other cell changes, and no other key or cell key reads differently. |
| MapGen.PlacePewRow | utils/mapGenerator.ts:71-73 | Every column of the pew range on the bench row becomes BENCH, and its key reads as the chair `pew_y_x`. Every other cell is unchanged, and every key other than those pews' keys reads as before. |
| MapGen.PlaceBenchRow | utils/mapGenerator.ts:69-74 | One bench row gets its left pews (columns 12 to 16) and right pews (23 to 27), each a BENCH registered as `pew_y_x`. No other cell changes, and no key other than those pews' keys. |
| MapGen.PewRowsStep | utils/mapGenerator.ts:69 | Laying one more bench row after some rows gives the pews of all those rows together. |
| MapGen.PlacePews | utils/mapGenerator.ts:68-74 | Every pew column of every listed row becomes BENCH and is registered as the chair `pew_y_x`. No other cell changes, no key other than those pews' keys changes, and the registry stays well keyed. |
| MapGen.ChapelRoom | utils/mapGenerator.ts:56-65 | The chapel room only touches its own rectangle, columns 10 to 29 of rows 6 to 17, and leaves the registry alone. Row 6 is wall from column 10 to 29, and columns 10 and 29 are wall down to row 16. The altar is at columns 19 and 20 of row 8 with candles at 18 and 21. The carpet aisle fills columns 19 and 20 on rows 7 and 9 to 16. Every other cell of columns 11 to 28 on rows 7 to 16 off the pew cells is FLOOR. |
| MapGen.Altar | utils/mapGenerator.ts:61-65 | The altar goes at (19,8) and (20,8) with candles at (18,8) and (21,8). No other cell changes and the registry is untouched. |
| MapGen.ChapelShellDrawn | utils/mapGenerator.ts:56-65 | The walled floor and carpet aisle, with the altar and candles set on row 8, give the chapel room: walls, altar, candles, aisle and floor. Nothing outside the chapel's rectangle has changed. |
| MapGen.BenchRowsPlaced | utils/mapGenerator.ts:68 | Pews laid on the rows of `benchRows` are laid and registered on exactly the rows 9, 11, 13 and 15. |
| MapGen.PewKeysAvoid | utils/mapGenerator.ts:71-77 | No pew's key is the priest's key, nor any key the reception registers. |
| MapGen.PewsRegisteredKept | utils/mapGenerator.ts:77-113 | The pews stay registered through any later step that writes only the priest's or the reception's keys. |
| MapGen.Chapel | utils/mapGenerator.ts:54-77 | The chapel only touches columns 10 to 29 of rows 6 to 17. It leaves the room's walls, altar, candles, aisle and floor in place and a bench on every pew cell. Every pew is registered as its `pew_y_x` chair, the priest is registered under `8,19`, and every other key reads as before. |
| MapGen.ReceptionShell | utils/mapGenerator.ts:82-89 | The reception walls only touch the room's rectangle. Row 17 is wall across the room except the double door at columns 19 and 20. Columns 10 and 29 are wall on rows 18 to 24, row 24 is wall from column 10 to 29, and columns 11 to 28 of rows 18 to 23 are FLOOR. |
| MapGen.SouthEntrance | utils/mapGenerator.ts:91-95 | The south doors go at (19,24) and (20,24), with candles at (18,24) and (21,24). No other cell changes and the registry is untouched. |
| MapGen.SideDoorsAndDesk | utils/mapGenerator.ts:97-104 | The side doors go at (10,20) and (29,20) and the desk at (24,20) and (25,20). No other cell changes and the registry is untouched. |
| MapGen.EntranceAndDesk | utils/mapGenerator.ts:91-104 | The south doors at (19,24) and (20,24) with candles at (18,24) and (21,24), the side doors at (10,20) and (29,20), and the desk at (24,20) and (25,20) are placed. Exactly these eight cells change, and the registry is untouched. |
| MapGen.DeskAndNotice | utils/mapGenerator.ts:105-109 | The receptionist is registered under `25,20` and the notice board under `16,15`, and cell (15,17) becomes WALL. Nothing else changes. |
| MapGen.WaitChairIds | utils/mapGenerator.ts:112-113 | The two waiting chair ids name the cells they are registered under. |
| MapGen.WaitingChairs | utils/mapGenerator.ts:111-113 | Benches go at (12,19) and (12,21) and are registered as the chairs `wait_19_12` and `wait_21_12`. No other cell changes, and every other key reads as before. |
| MapGen.WaitingDecor | utils/mapGenerator.ts:115-119 | Flowers go at (11,23) and (28,23) and candles at (11,18) and (28,18). No other cell changes and the registry is untouched. |
| MapGen.WaitingArea | utils/mapGenerator.ts:111-119 | Benches at (12,19) and (12,21) are registered as the chairs `wait_19_12` and `wait_21_12`. Flowers go at (11,23) and (28,23) and candles at (11,18) and (28,18). Exactly these six cells change, and every other key reads as before. |
| MapGen.ReceptionAssembled | utils/mapGenerator.ts:82-119 | The reception's four stages compose into the furnished room. The entrance and the waiting area write only their own cells, which lie off the divider and apart from each other. The notice board's backing wall at (15,17) is itself a divider wall. |
| MapGen.ReceptionRoomKept | utils/mapGenerator.ts:82-119 | The drawn outer walls and floor stay wherever the entrance, the desk, the notice board and the waiting area write nothing: the side walls except the doors on row 20, the south wall except columns 18 to 21, and the floor except the desk and waiting furniture. |
| MapGen.ReceptionFramed | utils/mapGenerator.ts:80-119 | The reception's four stages together write only inside its walls, columns 10 to 29 of rows 17 to 24. |
| MapGen.Reception | utils/mapGenerator.ts:80-119 | The reception touches only its own rectangle, columns 10 to 29 of rows 17 to 24. The finished room has the divider and its double door, the south entrance and its candles, the side doors, the desk, both waiting chairs and the corner plants and candles. The outer walls stand on columns 10 and 29 and on row 24 except at those doors and candles, and every other inner cell is FLOOR. The receptionist, the notice board and both waiting chairs are registered, and every other key reads as before. |
| MapGen.ReceptionKeys | utils/mapGenerator.ts:105-113 | The receptionist and notice board registered first and the two waiting chairs after are all still registered, and no key outside those four has changed. |
| MapGen.Building | utils/mapGenerator.ts:50-119 | The building leaves every cell outside its footprint, columns 10 to 29 of rows 6 to 24, as it was. Both rooms are laid out as above, walls and floors included. The priest, receptionist, notice board, both waiting chairs and every pew are registered, every other key reads as before, and the registry stays well keyed. |
| MapGen.ChapelKeysFramed | utils/mapGenerator.ts:69-77 | The chapel registers nothing but its pews and the priest. |
| MapGen.BuildingKeysFramed | utils/mapGenerator.ts:69-113 | The chapel and the reception together register nothing but the priest, the receptionist, the notice board, the two waiting chairs and the pews. |
| MapGen.Build | utils/mapGenerator.ts:5-119 | The scatter, the paths and the building together give both rooms laid out in full, walls and floors included, and every registration of the building, with a well-keyed registry. Outside the building footprint every cell is PATH on the four paths and otherwise the scatter's tile for blank grass. Nothing but the building's keys is registered. |
| MapGen.RenderedBuilding | utils/mapGenerator.ts:121 | Turning the canvas into the returned grid keeps both rooms laid out in full. |
| MapGen.RenderedChapel | utils/mapGenerator.ts:121 | Turning the canvas into the returned grid keeps the furnished chapel. |
| MapGen.RenderedReception | utils/mapGenerator.ts:121 | Turning the canvas into the returned grid keeps the furnished reception. |
| MapGen.RenderedCells | utils/mapGenerator.ts:121 | Turning the canvas into the returned grid keeps the bottom path at (20,25), the notice-board wall at (15,17) and every pew bench. |
| MapGen.RenderedOutskirts | utils/mapGenerator.ts:121 | Turning the canvas into the returned grid keeps the paths and the scatter around the building. |
| MapGen.GenerateMap | utils/mapGenerator.ts:4-121 | The generated map is a well-formed grid with unique keys, and every chair id names its own cell. Both rooms are laid out as the source builds them, walls, floors and furniture. The priest, receptionist, notice board, both waiting chairs and every pew are registered, and no other key is. Outside the building footprint every cell is PATH on the four paths and otherwise what the scatter made of blank grass. The notice-board wall at (15,17) and every pew bench are where the source puts them. |
| MapGen.SitOnRegisteredChair | Game.tsx:72-74 | Interacting with any chair of a generated registry seats the player at the cell that chair is registered under, drawn 10 pixels above it: position (col * 48, row * 48 - 10). |
| MapGen.DeclaredSizeTooSmall | types.ts:64-65 | The declared 20 by 15 map cannot hold the bottom path rectangle the generator draws, and 40 by 30 can. |

## Left out

- Timers, `useEffect` scheduling, `requestAnimationFrame` and event listeners are not modelled. A timer firing is a `Timeout` event, the effect is `Evaluate`, and a frame is `Tick`.
- Director.RunFromInitial / Director.RunServed: an `Added` event is the moment an `addFuneral` call's eulogy request resolves and the record is queued. Two submissions whose requests overlap can be queued in the opposite order to the one they were submitted in. The model promises the order records were added, not the order the form was submitted.
- Director.Timeout: re-arming the timer when the queue changes mid-phase is not modelled. In the source, that restart delays a phase change, and the model has no clock to delay.
- The remote eulogy generator is not modelled. Its result is the `eulogy` parameter. The source has no fallback text, so none is modelled.
- `Date.now()` and `Math.random()` are parameters (`now`, `id`, `rand`).
- Movement.Tick: positions are integers. The diagonal speed `4 / sqrt 2` is the parameter `diagStep`, because floating point is not modelled.
- Interaction.Dispatch / Interaction.AppInteract: a chair whose id does not parse gives the source a NaN position (`x * TILE_SIZE` with `x` NaN). The model keeps the player's old position and reports `BadChairPosition`, because positions are integers. Generated chairs always parse (`MapGen.SitOnRegisteredChair`).
- Interaction.Nearest: `Math.hypot` is compared squared in exact arithmetic, so floating-point rounding is not modelled.
- Text.ParseNat models `Number()` only on strings of decimal digits; every other string counts as NaN. The generator only writes digit fields.
- Text.Lower lower-cases ASCII letters only, because Unicode case mapping is not modelled.
- Movement.Blocked: the bounds test uses the grid's own width and height. The source compares against the declared `MAP_WIDTH` and `MAP_HEIGHT`.
- MapGen.GenerateMap requires a grid of at least 40 by 30. JavaScript silently extending short rows past their length is not modelled.
- Dialogue chunking of the eulogy is not modelled, because neither copy of the director implements it.
- The 3000 ms notification timeout, the "Processing…" and "Accepted." notifications and the form's loading flag are not modelled. Notifications are the `Notify` effect only.
- Rendering, camera, zoom and character customisation are not modelled. They are presentation only.
- `TileType` and `Interactable` in types.ts list fewer kinds than the code uses. The model's `Tile` and `Kind` are the kinds the code writes.

## Findings

| source | as written | input that shows it | evidently intended | confidence | as-written member | corrected member |
|---|---|---|---|---|---|---|
| types.ts:64-65 | the map is 20 columns by 15 rows, the size `generateMap` allocates | the bottom path `drawRect(18, 24, 21, 29, …)` at utils/mapGenerator.ts:45 writes row 24 of a 15-row grid, where `tiles[24]` is undefined and the write throws | a map of at least 40 by 30, the extent every coordinate of the generator fits | not executed; medium | MapGen.DeclaredSizeTooSmall | MapGen.GenerateMap |

=== FILE: director.dfy ===
/**
 The ceremony director of `useFuneralSystem`: a FIFO queue of funerals, an
 optional active ceremony and a newest-first history, driven through the
 phases Idle, Preaching, Amen and Burial.

 The React effect is split into its two halves. `Evaluate` is the synchronous
 part the effect runs whenever the phase, the queue or the active ceremony
 changes (the Idle to Preaching promotion). `Timeout` is the callback of the one
 timer the effect schedules in the other phases, whose delay `TimerDelay` gives.
 */
module Director {
  import opened Types

  datatype State = State(queue: seq<Record>, active: Option<Record>, history: seq<Record>, phase: Phase)

  /** The record the queue starts with; `now` stands for `Date.now()`. */
  function InitialFuneral(now: int): Record {
    Record("init", "Your Motivation", "Doomscrolling",
      "It died as it lived: consuming content without creating anything.", now, 0)
  }

  function Initial(now: int): State {
    State([InitialFuneral(now)], None, [], Idle)
  }

  /** Milliseconds until the pending phase timer fires; Idle schedules none. */
  function TimerDelay(p: Phase): Option<nat> {
    match p
    case Idle => None
    case Preaching => Some(6000)
    case Amen => Some(2000)
    case Burial => Some(4000)
  }

  /** The phase a running ceremony moves to next. */
  function NextPhase(p: Phase): Phase {
    match p
    case Idle => Preaching
    case Preaching => Amen
    case Amen => Burial
    case Burial => Idle
  }

  function Reverse<T>(s: seq<T>): (r: seq<T>)
    ensures |r| == |s|
    decreases |s|
  {
    if |s| == 0 then [] else Reverse(s[1..]) + [s[0]]
  }

  function OptionSeq<T>(o: Option<T>): seq<T> {
    if o.Some? then [o.value] else []
  }

  /**
   Every record the director holds, in the order the records were submitted:
   the finished ones oldest first, then the one being buried, then the waiting ones.
   */
  function Served(d: State): seq<Record> {
    Reverse(d.history) + OptionSeq(d.active) + d.queue
  }

  /** The records held, counted with multiplicity. */
  function Contents(d: State): multiset<Record> {
    multiset(d.queue) + multiset(OptionSeq(d.active)) + multiset(d.history)
  }

  /** The shape every reachable state has: a ceremony is active exactly when the phase is not Idle. */
  predicate Inv(d: State) {
    d.phase != Idle <==> d.active.Some?
  }

  /** The synchronous half of the effect: an Idle director with no active ceremony starts the queue head. */
  function Evaluate(d: State): (d': State)
    ensures d.phase == Idle && |d.queue| > 0 && d.active.None? ==>
      && d'.active == Some(d.queue[0])
      && d'.queue == d.queue[1..]
      && d'.history == d.history
      && d'.phase == Preaching
      && TimerDelay(d'.phase) == Some(6000)
    ensures d.phase == Idle && (|d.queue| == 0 || d.active.Some?) ==> d' == d && TimerDelay(d'.phase).None?
    ensures d.phase != Idle ==> d' == d
  {
    if d.phase == Idle && |d.queue| > 0 && d.active.None? then
      State(d.queue[1..], Some(d.queue[0]), d.history, Preaching)
    else d
  }

  /** The callback of the phase timer; only a non-Idle phase has one. */
  function Timeout(d: State): (d': State)
    requires TimerDelay(d.phase).Some?
    ensures d'.queue == d.queue
    ensures d'.phase == NextPhase(d.phase)
    ensures d.phase in {Preaching, Amen} ==> d'.active == d.active && d'.history == d.history
    ensures d.phase == Burial ==> d'.active.None? && d'.history == OptionSeq(d.active) + d.history
  {
    match d.phase
    case Preaching => d.(phase := Amen)
    case Amen => d.(phase := Burial)
    case Burial => State(d.queue, None, OptionSeq(d.active) + d.history, Idle)
  }

  /** The record `addFuneral` builds once the eulogy is known; `id` and `now` come from the clock. */
  function NewFuneral(name: string, cause: string, eulogy: string, id: string, now: int): Record {
    Record(id, name, cause, eulogy, now, 0)
  }

  /** `addFuneral(name, cause)` after the eulogy request has resolved to `eulogy`. */
  function AddFuneral(d: State, name: string, cause: string, eulogy: string, id: string, now: int): (d': State)
    ensures |d'.queue| == |d.queue| + 1
    ensures d'.queue[..|d.queue|] == d.queue
    ensures var r := d'.queue[|d.queue|];
      r.deceasedName == name && r.causeOfDeath == cause && r.eulogy == eulogy && r.attendees == 0
    ensures d'.active == d.active && d'.history == d.history && d'.phase == d.phase
  {
    d.(queue := d.queue + [NewFuneral(name, cause, eulogy, id, now)])
  }

  /**
   The application form's submit handler: an empty name or cause is refused
   before anything is queued; otherwise the funeral is added.
   */
  function Submit(d: State, name: string, cause: string, eulogy: string, id: string, now: int): (d': State)
    ensures name == "" || cause == "" ==> d' == d
    ensures name != "" && cause != "" ==>
      && d'.queue == d.queue + [NewFuneral(name, cause, eulogy, id, now)]
      && d'.queue[|d'.queue| - 1].attendees == 0
      && d'.active == d.active && d'.history == d.history && d'.phase == d.phase
  {
    if name == "" || cause == "" then d else AddFuneral(d, name, cause, eulogy, id, now)
  }

  /** The events that change the director. */
  datatype Event =
    | Evaluated
    | TimerFired
    | Added(name: string, cause: string, eulogy: string, id: string, now: int)

  /** `b` is a suffix of `a`: the history only ever grows at its front. */
  predicate EndsWith(a: seq<Record>, b: seq<Record>) {
    |b| <= |a| && a[|a| - |b|..] == b
  }

  /** One event; a timer only fires in a phase that has scheduled one. */
  function Step(d: State, e: Event): (r: State)
    ensures r.phase == d.phase || r.phase == NextPhase(d.phase)
    ensures EndsWith(r.history, d.history)
  {
    match e
    case Evaluated => Evaluate(d)
    case TimerFired => if TimerDelay(d.phase).Some? then Timeout(d) else d
    case Added(n, c, eu, id, now) => AddFuneral(d, n, c, eu, id, now)
  }

  /** The record an event adds, if any. */
  function AddedBy(e: Event): seq<Record> {
    match e
    case Added(n, c, eu, id, now) => [NewFuneral(n, c, eu, id, now)]
    case _ => []
  }

  /** The director after a run of events; no record ever leaves the history. */
  function Run(d: State, es: seq<Event>): (r: State)
    ensures EndsWith(r.history, d.history)
    decreases |es|
  {
    if |es| == 0 then d
    else
      var d1 := Step(d, es[0]);
      var r := Run(d1, es[1..]);
      assert r.history[|r.history| - |d.history|..] == d1.history[|d1.history| - |d.history|..];
      r
  }

  /** The records a run of events submits, in submission order. */
  function Submitted(es: seq<Event>): seq<Record>
    decreases |es|
  {
    if |es| == 0 then [] else AddedBy(es[0]) + Submitted(es[1..])
  }

  lemma ReverseAppend<T>(s: seq<T>, x: T)
    ensures Reverse([x] + s) == Reverse(s) + [x]
  {
    assert ([x] + s)[1..] == s;
  }

  /** Promoting the queue head moves it from the front of the queue into the active slot, in place. */
  lemma EvaluateServed(d: State)
    ensures Served(Evaluate(d)) == Served(d)
  {
    if d.phase == Idle && |d.queue| > 0 && d.active.None? {
      assert d.queue == [d.queue[0]] + d.queue[1..];
      assert Served(Evaluate(d)) == Reverse(d.history) + ([d.queue[0]] + d.queue[1..]);
    }
  }

  /** Ending a burial moves the active record to the front of the history, which `Served` reads reversed. */
  lemma TimeoutServed(d: State)
    requires TimerDelay(d.phase).Some?
    ensures Served(Timeout(d)) == Served(d)
  {
    if d.phase == Burial {
      if d.active.Some? {
        ReverseAppend(d.history, d.active.value);
      } else {
        assert OptionSeq(d.active) + d.history == d.history;
      }
    }
  }

  lemma AddServed(d: State, name: string, cause: string, eulogy: string, id: string, now: int)
    ensures Served(AddFuneral(d, name, cause, eulogy, id, now)) == Served(d) + [NewFuneral(name, cause, eulogy, id, now)]
  {
  }

  /**
   FIFO order: no director transition reorders, drops or duplicates a record,
   and adding a funeral places it after every record already held.
   */
  lemma StepServed(d: State, e: Event)
    ensures Served(Step(d, e)) == Served(d) + AddedBy(e)
  {
    match e
    case Evaluated => EvaluateServed(d);
    case TimerFired => if TimerDelay(d.phase).Some? { TimeoutServed(d); }
    case Added(n, c, eu, id, now) => AddServed(d, n, c, eu, id, now);
  }

  /** The records held are exactly those of the list `Served`, counted with multiplicity. */
  lemma ContentsServed(d: State)
    ensures Contents(d) == multiset(Served(d))
  {
    ReverseMultiset(d.history);
  }

  lemma {:induction false} ReverseMultiset<T>(s: seq<T>)
    ensures multiset(Reverse(s)) == multiset(s)
    decreases |s|
  {
    if |s| > 0 {
      ReverseMultiset(s[1..]);
      assert s == [s[0]] + s[1..];
    }
  }

  /**
   Conservation: the multiset of queue, active ceremony and history is unchanged
   by every director transition and grows by exactly one record on `addFuneral`.
   */
  lemma StepConservesContents(d: State, e: Event)
    ensures Contents(Step(d, e)) == Contents(d) + multiset(AddedBy(e))
    ensures e.Added? ==> |Contents(Step(d, e))| == |Contents(d)| + 1
    ensures !e.Added? ==> Contents(Step(d, e)) == Contents(d)
  {
    StepServed(d, e);
    ContentsServed(d);
    ContentsServed(Step(d, e));
  }

  /** Every event keeps "a ceremony is active exactly when the phase is not Idle". */
  lemma StepInv(d: State, e: Event)
    requires Inv(d)
    ensures Inv(Step(d, e))
  {
  }

  /**
   Phases advance one at a time along Idle, Preaching, Amen, Burial, Idle; the
   active record is fixed while its ceremony runs; history grows only when a
   burial ends, and then by the buried record at its front.
   */
  lemma StepPhaseOrder(d: State, e: Event)
    requires Inv(d)
    ensures var d' := Step(d, e);
      && (d'.phase == d.phase || d'.phase == NextPhase(d.phase))
      && (d.phase != Idle && d'.phase != Idle ==> d'.active == d.active)
      && (d'.history == d.history || (d.phase == Burial && d'.phase == Idle && d'.history == [d.active.value] + d.history))
  {
  }

  /** Re-running the effect after a promotion changes nothing more. */
  lemma EvaluateIdempotent(d: State)
    ensures Evaluate(Evaluate(d)) == Evaluate(d)
  {
  }

  /** After the effect has run, a valid state is never Idle with funerals waiting. */
  lemma EvaluateSettles(d: State)
    requires Inv(d)
    ensures var d' := Evaluate(d); !(d'.phase == Idle && |d'.queue| > 0)
  {
  }

  /**
   From the initial state, after any events: the invariant holds and the held
   records, oldest first, are the initial record followed by every submitted one.
   */
  lemma RunFromInitial(now: int, es: seq<Event>)
    ensures Inv(Run(Initial(now), es))
    ensures Served(Run(Initial(now), es)) == [InitialFuneral(now)] + Submitted(es)
  {
    RunServed(Initial(now), es);
  }

  lemma AppendAssoc<T>(a: seq<T>, b: seq<T>, c: seq<T>)
    ensures (a + b) + c == a + (b + c)
  {
  }

  /** A run is its first step followed by the run of the remaining events. */
  lemma RunCons(d: State, es: seq<Event>)
    requires |es| > 0
    ensures Run(d, es) == Run(Step(d, es[0]), es[1..])
    ensures Submitted(es) == AddedBy(es[0]) + Submitted(es[1..])
  {
  }

  lemma {:induction false} RunServed(d: State, es: seq<Event>)
    requires Inv(d)
    ensures Inv(Run(d, es))
    ensures Served(Run(d, es)) == Served(d) + Submitted(es)
    decreases |es|
  {
    if |es| > 0 {
      var e, rest := es[0], es[1..];
      var d1 := Step(d, e);
      StepInv(d, e);
      StepServed(d, e);
      RunServed(d1, rest);
      RunCons(d, es);
      AppendAssoc(Served(d), AddedBy(e), Submitted(rest));
    }
  }

  /**
   History is the reverse of the dequeue order: read backwards it is a prefix of
   the submission order, starting with the initial record.
   */
  lemma HistoryOrder(now: int, es: seq<Event>)
    ensures var d := Run(Initial(now), es);
      && |d.history| <= 1 + |Submitted(es)|
      && Reverse(d.history) == ([InitialFuneral(now)] + Submitted(es))[..|d.history|]
  {
    RunFromInitial(now, es);
  }

  /**
   The older copy of the machine in App.tsx: identical, except that ending a
   burial clears the active ceremony without recording it in a history.
   */
  function AppTimeout(d: State): (d': State)
    requires TimerDelay(d.phase).Some?
    ensures d'.queue == d.queue && d'.history == d.history
    ensures d'.phase == NextPhase(d.phase)
    ensures d.phase == Burial ==> d'.active.None?
    ensures d.phase != Burial ==> d'.active == d.active
  {
    match d.phase
    case Preaching => d.(phase := Amen)
    case Amen => d.(phase := Burial)
    case Burial => d.(active := None, phase := Idle)
  }

  /** In the App.tsx copy a finished ceremony's record leaves the system; the hook keeps it. */
  lemma AppTimeoutDropsBuried(d: State)
    requires d.phase == Burial && d.active.Some?
    ensures Contents(AppTimeout(d)) + multiset{d.active.value} == Contents(d)
    ensures Contents(Timeout(d)) == Contents(d)
  {
  }
}

=== FILE: grid.dfy ===
/**
 The spatial model: a rectangular tile grid indexed `tiles[row][col]` and the
 interactable registry, a string-keyed record whose keys are `"row,col"`.
 */
module Grid {
  import opened Types
  import opened Text

  type Tiles = seq<seq<Tile>>

  /** `h` rows of `w` cells each. */
  predicate WellFormed(g: Tiles, w: nat, h: nat) {
    |g| == h && forall row :: 0 <= row < h ==> |g[row]| == w
  }

  predicate InMap(w: nat, h: nat, col: int, row: int) {
    0 <= col < w && 0 <= row < h
  }

  /** The tile in a cell, or None for a cell outside the map. */
  function TileAt(g: Tiles, w: nat, h: nat, col: int, row: int): (t: Option<Tile>)
    requires WellFormed(g, w, h)
    ensures t.Some? <==> InMap(w, h, col, row)
  {
    if InMap(w, h, col, row) then Some(g[row][col]) else None
  }

  /** One registry property, `registry[key] = item`. */
  datatype Entry = Entry(key: string, item: Interactable)

  /**
   The registry in the order `Object.entries` reports it: the generator's keys
   are never array indices, so this is insertion order, and re-assigning an
   existing key keeps its original position.
   */
  type Registry = seq<Entry>

  function KeysOf(r: Registry): (ks: seq<string>)
    ensures |ks| == |r|
    ensures forall i :: 0 <= i < |r| ==> ks[i] == r[i].key
  {
    seq(|r|, i requires 0 <= i < |r| => r[i].key)
  }

  predicate UniqueKeys(r: Registry) {
    forall i, j :: 0 <= i < j < |r| ==> r[i].key != r[j].key
  }

  /** `registry[key]`: the item stored under `k`, if any. */
  function Lookup(r: Registry, k: string): (v: Option<Interactable>)
    ensures v.Some? <==> k in KeysOf(r)
    decreases |r|
  {
    if |r| == 0 then None
    else if r[0].key == k then
      assert KeysOf(r)[0] == k;
      Some(r[0].item)
    else Lookup(r[1..], k)
  }

  /** `registry[k] = v`: overwrite in place, or append a new property. */
  function Upsert(r: Registry, k: string, v: Interactable): (r': Registry)
    ensures k in KeysOf(r) ==> KeysOf(r') == KeysOf(r)
    ensures k !in KeysOf(r) ==> KeysOf(r') == KeysOf(r) + [k]
    ensures UniqueKeys(r) ==> UniqueKeys(r')
    ensures forall i :: 0 <= i < |r'| ==> r'[i] == Entry(k, v) || (i < |r| && r'[i] == r[i])
  {
    if k in KeysOf(r) then seq(|r|, i requires 0 <= i < |r| => if r[i].key == k then Entry(k, v) else r[i])
    else r + [Entry(k, v)]
  }

  /** After `registry[k] = v`, reading `k` gives `v` and every other key reads as before. */
  lemma {:induction false} UpsertLookup(r: Registry, k: string, v: Interactable, k': string)
    ensures Lookup(Upsert(r, k, v), k') == if k' == k then Some(v) else Lookup(r, k')
    decreases |r|
  {
    var r' := Upsert(r, k, v);
    if |r| > 0 {
      var rest := r[1..];
      assert KeysOf(rest) == KeysOf(r)[1..];
      if k in KeysOf(rest) {
        assert r'[1..] == Upsert(rest, k, v);
        UpsertLookup(rest, k, v, k');
      } else if r[0].key == k {
        assert forall i :: 0 <= i < |rest| ==> rest[i].key != k;
        assert r'[1..] == rest;
      } else {
        assert k !in KeysOf(r);
        assert r'[1..] == Upsert(rest, k, v);
        UpsertLookup(rest, k, v, k');
      }
    }
  }

  /** The registry key the generator writes for a cell: `${row},${col}`. */
  function CellKey(row: nat, col: nat): string {
    NatToString(row) + "," + NatToString(col)
  }

  /**
   `key.split(',').map(Number)` destructured as `[ty, tx]`: the row and column a
   key names, or None when either field is missing or not a number (NaN).
   */
  function ParseKey(k: string): Option<(nat, nat)> {
    var fields := Split(k, ',');
    if |fields| < 2 then None
    else match (ParseNat(fields[0]), ParseNat(fields[1]))
      case (Some(row), Some(col)) => Some((row, col))
      case _ => None
  }

  /**
   A key reads as the row and column in its first two comma-separated fields,
   both digit strings; a key without a comma reads as no cell.
   */
  lemma ParseKeyFields(k: string)
    ensures ',' !in k ==> ParseKey(k).None?
    ensures ParseKey(k).Some? ==>
      && |Split(k, ',')| >= 2
      && ParseNat(Split(k, ',')[0]) == Some(ParseKey(k).value.0)
      && ParseNat(Split(k, ',')[1]) == Some(ParseKey(k).value.1)
    ensures |Split(k, ',')| >= 2 && ParseNat(Split(k, ',')[0]).Some? && ParseNat(Split(k, ',')[1]).Some? ==>
      ParseKey(k).Some?
  {
    if ',' !in k {
      SplitNoSeparator(k, ',');
    }
  }

  /** A key the generator writes parses back to the cell it was written for. */
  lemma ParseCellKey(row: nat, col: nat)
    ensures ParseKey(CellKey(row, col)) == Some((row, col))
  {
    var a := NatToString(row);
    var b := NatToString(col);
    DigitsExclude(a, ',');
    DigitsExclude(b, ',');
    SplitAtFirst(a, b, ',');
    SplitNoSeparator(b, ',');
    ParseFormatRoundTrip(row);
    ParseFormatRoundTrip(col);
  }

  /** Distinct cells have distinct keys. */
  lemma CellKeyInjective(row1: nat, col1: nat, row2: nat, col2: nat)
    ensures CellKey(row1, col1) == CellKey(row2, col2) <==> row1 == row2 && col1 == col2
  {
    ParseCellKey(row1, col1);
    ParseCellKey(row2, col2);
  }
}

=== FILE: interaction.dfy ===
/**
 The interaction resolver of Game.tsx (`handleInteract`) and its older copy in
 App.tsx (`checkInteraction`): on the interact key, stand up if sitting,
 otherwise find the nearest registered interactable strictly within 60 pixels
 of the player's centre and act on its kind.

 Distances are compared squared, in exact arithmetic: `hypot(a, b) < m` is
 `a*a + b*b < m*m` for the non-negative `m` the search carries.
 */
module Interaction {
  import opened Types
  import opened Grid
  import opened Text
  import opened Movement

  const INTERACT_RADIUS: nat := 60
  const RADIUS_SQUARED: nat := INTERACT_RADIUS * INTERACT_RADIUS

  /** Squared distance from the player's centre to the centre of cell (row, col). */
  function SquaredDistance(p: Pos, row: nat, col: nat): (r: int)
    ensures r >= 0
    ensures r == 0 <==> p == Pos(col * TILE_SIZE, row * TILE_SIZE)
  {
    var cx := p.x + TILE_SIZE / 2;
    var cy := p.y + TILE_SIZE / 2;
    var ox := col * TILE_SIZE + TILE_SIZE / 2;
    var oy := row * TILE_SIZE + TILE_SIZE / 2;
    SumOfSquares(cx - ox, cy - oy);
    (cx - ox) * (cx - ox) + (cy - oy) * (cy - oy)
  }

  lemma SumOfSquares(a: int, b: int)
    ensures a * a + b * b >= 0
    ensures a * a + b * b == 0 <==> a == 0 && b == 0
  {
    if a != 0 { assert a * a > 0; }
    if b != 0 { assert b * b > 0; }
  }

  /** The squared distance to entry `j`, or None when its key does not parse (a NaN distance). */
  function Dist(r: Registry, p: Pos, j: int): Option<int>
    requires 0 <= j < |r|
  {
    match ParseKey(r[j].key)
    case Some((row, col)) => Some(SquaredDistance(p, row, col))
    case None => None
  }

  /** The squared distance to every entry, in registry order. */
  function Distances(r: Registry, p: Pos): (ds: seq<Option<int>>)
    ensures |ds| == |r|
    ensures forall j :: 0 <= j < |r| ==> ds[j] == Dist(r, p, j)
  {
    seq(|r|, j requires 0 <= j < |r| => Dist(r, p, j))
  }

  /** A distance strictly below `bound` (NaN never is). */
  predicate Below(d: Option<int>, bound: int) {
    d.Some? && d.value < bound
  }

  /**
   The entry the search must choose: strictly within range, strictly closer than
   every earlier entry and no farther than every later one.
   */
  ghost predicate IsNearest(ds: seq<Option<int>>, k: int) {
    && 0 <= k < |ds|
    && Below(ds[k], RADIUS_SQUARED)
    && (forall j :: 0 <= j < k ==> !Below(ds[j], ds[k].value + 1))
    && (forall j :: k < j < |ds| ==> !Below(ds[j], ds[k].value))
  }

  ghost predicate NoneInRange(ds: seq<Option<int>>) {
    forall j :: 0 <= j < |ds| ==> !Below(ds[j], RADIUS_SQUARED)
  }

  /**
   The `forEach` over the registry from entry `i` on, carrying the nearest entry
   so far and its squared distance (`minDist` starts at 60).
   */
  function ScanFrom(ds: seq<Option<int>>, i: nat, best: Option<nat>, bestD: int): (res: Option<nat>)
    requires i <= |ds|
    requires best.None? ==> bestD == RADIUS_SQUARED && forall j :: 0 <= j < i ==> !Below(ds[j], RADIUS_SQUARED)
    requires best.Some? ==>
      && best.value < i
      && ds[best.value] == Some(bestD) && bestD < RADIUS_SQUARED
      && (forall j :: 0 <= j < best.value ==> !Below(ds[j], bestD + 1))
      && (forall j :: best.value < j < i ==> !Below(ds[j], bestD))
    ensures res.None? ==> NoneInRange(ds)
    ensures res.Some? ==> IsNearest(ds, res.value)
    decreases |ds| - i
  {
    if i == |ds| then best
    else if Below(ds[i], bestD) then
      assert forall j :: 0 <= j < i ==> !Below(ds[j], bestD) by {
        if best.Some? { assert ds[best.value] == Some(bestD); }
      }
      ScanFrom(ds, i + 1, Some(i), ds[i].value)
    else ScanFrom(ds, i + 1, best, bestD)
  }

  /** The nearest interactable strictly within range, first found on a tie. */
  function Nearest(r: Registry, p: Pos): (res: Option<nat>)
    ensures res.None? <==> NoneInRange(Distances(r, p))
    ensures res.Some? ==> IsNearest(Distances(r, p), res.value)
  {
    ScanFrom(Distances(r, p), 0, None, RADIUS_SQUARED)
  }

  /** At most one entry meets the nearest-entry description, so `Nearest` is fully determined by it. */
  lemma NearestUnique(ds: seq<Option<int>>, k1: int, k2: int)
    requires IsNearest(ds, k1) && IsNearest(ds, k2)
    ensures k1 == k2
  {
  }

  /** The search picks entry `k` exactly when `k` is the nearest entry in range. */
  lemma NearestIff(r: Registry, p: Pos, k: int)
    ensures Nearest(r, p) == Some(k) <==> IsNearest(Distances(r, p), k)
  {
    if IsNearest(Distances(r, p), k) {
      NearestUnique(Distances(r, p), Nearest(r, p).value, k);
    }
  }

  /** What the interaction opens or shows, beside the player change. */
  datatype Effect =
    | NoEffect
    | OpenApplication
    | OpenHistory
    | Notify(message: string)
    | BadChairPosition

  datatype Outcome = Outcome(player: Player, effect: Effect)

  /**
   The chair id's cell: `id.split('_').slice(1).map(Number)` destructured as
   `[y, x]`, i.e. the second and third `_`-separated fields as row and column.
   */
  function ParseChairId(id: string): Option<(nat, nat)> {
    var fields := Split(id, '_');
    if |fields| < 3 then None
    else match (ParseNat(fields[1]), ParseNat(fields[2]))
      case (Some(row), Some(col)) => Some((row, col))
      case _ => None
  }

  /**
   A chair id reads as the row and column in its second and third
   `_`-separated fields, both digit strings; an id without `_` reads as no cell.
   */
  lemma ParseChairIdFields(id: string)
    ensures '_' !in id ==> ParseChairId(id).None?
    ensures ParseChairId(id).Some? ==>
      && |Split(id, '_')| >= 3
      && ParseNat(Split(id, '_')[1]) == Some(ParseChairId(id).value.0)
      && ParseNat(Split(id, '_')[2]) == Some(ParseChairId(id).value.1)
    ensures |Split(id, '_')| >= 3 && ParseNat(Split(id, '_')[1]).Some? && ParseNat(Split(id, '_')[2]).Some? ==>
      ParseChairId(id).Some?
  {
    if '_' !in id {
      SplitNoSeparator(id, '_');
    }
  }

  /** A chair id the generator writes, `prefix_row_col`, names its own row and column. */
  lemma ParseChairIdOf(prefix: string, row: nat, col: nat)
    requires '_' !in prefix
    ensures ParseChairId(prefix + "_" + NatToString(row) + "_" + NatToString(col)) == Some((row, col))
  {
    var a := NatToString(row);
    var b := NatToString(col);
    DigitsExclude(a, '_');
    DigitsExclude(b, '_');
    assert prefix + "_" + a + "_" + b == prefix + ['_'] + (a + ['_'] + b);
    SplitAtFirst(prefix, a + ['_'] + b, '_');
    SplitAtFirst(a, b, '_');
    SplitNoSeparator(b, '_');
    ParseFormatRoundTrip(row);
    ParseFormatRoundTrip(col);
  }

  /** The player seated on the chair in cell (row, col), drawn slightly higher. */
  function SitAt(p: Player, row: nat, col: nat, facing: Facing): (r: Player)
    ensures r.sitting && !r.moving && r.facing == facing
    ensures SquaredDistance(r.pos, row, col) == STAND_NUDGE * STAND_NUDGE
  {
    p.(sitting := true, moving := false, facing := facing,
       pos := Pos(col * TILE_SIZE, row * TILE_SIZE - STAND_NUDGE))
  }

  /** The player standing up: no longer sitting and nudged 10 pixels down. */
  function StandUp(p: Player): (r: Player)
    ensures !r.sitting && r.moving == p.moving && r.facing == p.facing
    ensures r.pos.x == p.pos.x && r.pos.y - p.pos.y == STAND_NUDGE
  {
    p.(sitting := false, pos := Pos(p.pos.x, p.pos.y + STAND_NUDGE))
  }

  /** Standing up from a chair leaves the player exactly on the chair's cell. */
  lemma StandUpFromChair(p: Player, row: nat, col: nat, facing: Facing)
    ensures StandUp(SitAt(p, row, col, facing)).pos == Pos(col * TILE_SIZE, row * TILE_SIZE)
    ensures SquaredDistance(StandUp(SitAt(p, row, col, facing)).pos, row, col) == 0
  {
  }

  /** A message is shown only when present and non-empty (JavaScript truthiness). */
  predicate HasMessage(item: Interactable) {
    item.message.Some? && item.message.value != ""
  }

  /**
   Dispatch on the chosen interactable, in the source's order: receptionist,
   notice board, chair, then any other kind that carries a message.
   */
  function Dispatch(p: Player, item: Interactable): (o: Outcome)
    ensures item.kind == Receptionist ==> o == Outcome(p, OpenApplication)
    ensures item.kind == NoticeBoard ==> o == Outcome(p, OpenHistory)
    ensures item.kind == Chair ==> o.player.sitting && !o.player.moving && o.player.facing == Right
    ensures item.kind == Chair && ParseChairId(item.id).Some? ==>
      var (row, col) := ParseChairId(item.id).value;
      o == Outcome(SitAt(p, row, col, Right), NoEffect)
    ensures item.kind == Priest ==> o.player == p
    ensures item.kind == Priest && HasMessage(item) ==> o.effect == Notify(item.message.value)
    ensures item.kind == Priest && !HasMessage(item) ==> o.effect == NoEffect
  {
    if item.kind == Receptionist then Outcome(p, OpenApplication)
    else if item.kind == NoticeBoard then Outcome(p, OpenHistory)
    else if item.kind == Chair then
      match ParseChairId(item.id)
      case Some((row, col)) => Outcome(SitAt(p, row, col, Right), NoEffect)
      case None => Outcome(p.(sitting := true, moving := false, facing := Right), BadChairPosition)
    else if HasMessage(item) then Outcome(p, Notify(item.message.value))
    else Outcome(p, NoEffect)
  }

  predicate IsInteractKey(key: string) {
    Lower(key) == "f"
  }

  /** `handleInteract` of Game.tsx for one key press. */
  function Interact(p: Player, key: string, modalOpen: bool, r: Registry): (o: Outcome)
    ensures !IsInteractKey(key) || modalOpen ==> o == Outcome(p, NoEffect)
    ensures IsInteractKey(key) && !modalOpen && p.sitting ==> o == Outcome(StandUp(p), NoEffect)
    ensures IsInteractKey(key) && !modalOpen && !p.sitting && NoneInRange(Distances(r, p.pos)) ==> o == Outcome(p, NoEffect)
    ensures IsInteractKey(key) && !modalOpen && !p.sitting && !NoneInRange(Distances(r, p.pos)) ==>
      exists k :: IsNearest(Distances(r, p.pos), k) && o == Dispatch(p, r[k].item)
  {
    if !IsInteractKey(key) || modalOpen then Outcome(p, NoEffect)
    else if p.sitting then Outcome(StandUp(p), NoEffect)
    else match Nearest(r, p.pos)
      case None => Outcome(p, NoEffect)
      case Some(k) => Dispatch(p, r[k].item)
  }

  /**
   `checkInteraction` of App.tsx: no modal check, the priest opens the
   application form, a chair seats the player facing down, and nothing else
   reacts.
   */
  function AppInteract(p: Player, r: Registry): (o: Outcome)
    ensures p.sitting ==> o == Outcome(StandUp(p), NoEffect)
    ensures !p.sitting && NoneInRange(Distances(r, p.pos)) ==> o == Outcome(p, NoEffect)
    ensures o.effect in {NoEffect, OpenApplication, BadChairPosition}
    ensures !p.sitting && !NoneInRange(Distances(r, p.pos)) ==>
      exists k :: IsNearest(Distances(r, p.pos), k) &&
        (r[k].item.kind == Priest ==> o == Outcome(p, OpenApplication)) &&
        (r[k].item.kind == Chair && ParseChairId(r[k].item.id).Some? ==>
           var (row, col) := ParseChairId(r[k].item.id).value;
           o == Outcome(SitAt(p, row, col, Down), NoEffect)) &&
        (r[k].item.kind !in {Priest, Chair} ==> o == Outcome(p, NoEffect))
  {
    if p.sitting then Outcome(StandUp(p), NoEffect)
    else match Nearest(r, p.pos)
      case None => Outcome(p, NoEffect)
      case Some(k) =>
        var item := r[k].item;
        if item.kind == Priest then Outcome(p, OpenApplication)
        else if item.kind == Chair then
          match ParseChairId(item.id)
          case Some((row, col)) => Outcome(SitAt(p, row, col, Down), NoEffect)
          case None => Outcome(p.(sitting := true, moving := false, facing := Down), BadChairPosition)
        else Outcome(p, NoEffect)
  }
}

=== FILE: mapgen.dfy ===
/**
 The deterministic map builder of utils/mapGenerator.ts: the `drawRect` and
 `place` helpers, the random graveyard scatter (its random numbers are a
 parameter), and the fixed build sequence of paths, chapel and reception.

 The builder draws on a canvas, the tile of every cell as a function of its
 column and row, and renders it into the row-major grid the game reads. The
 build writes columns up to 39 and rows up to 29, so it needs a grid of at
 least 40 by 30 cells.
 */
module MapGen {
  import opened Types
  import opened Grid
  import opened Text
  import Interaction
  import Movement

  /** The grid size types.ts declares. */
  const MAP_WIDTH: nat := 20
  const MAP_HEIGHT: nat := 15
  /** The grid size the build sequence is drawn for. */
  const BUILD_WIDTH: nat := 40
  const BUILD_HEIGHT: nat := 30

  /** A `w` by `h` grid under construction: the tile in cell (x, y). */
  datatype Canvas = Canvas(w: nat, h: nat, at: (int, int) -> Tile)

  /** The canvas as the game's grid, `tiles[row][col]`. */
  function Render(c: Canvas): (g: Tiles)
    ensures WellFormed(g, c.w, c.h)
    ensures forall y, x :: 0 <= y < c.h && 0 <= x < c.w ==> g[y][x] == c.at(x, y)
  {
    seq(c.h, y => seq(c.w, x => c.at(x, y)))
  }

  /** `Array(MAP_HEIGHT).fill(null).map(() => Array(MAP_WIDTH).fill(GRASS))`. */
  function Blank(w: nat, h: nat): (c: Canvas)
    ensures c.w == w && c.h == h
    ensures forall y, x :: c.at(x, y) == GRASS
  {
    Canvas(w, h, (x, y) => GRASS)
  }

  /** A rectangle, given by its inclusive corners, that is empty or lies inside the grid. */
  predicate RectFits(w: nat, h: nat, x1: int, y1: int, x2: int, y2: int) {
    x1 > x2 || y1 > y2 || (0 <= x1 && 0 <= y1 && x2 < w && y2 < h)
  }

  predicate InRect(x: int, y: int, x1: int, y1: int, x2: int, y2: int) {
    x1 <= x <= x2 && y1 <= y <= y2
  }

  predicate OnEdge(x: int, y: int, x1: int, y1: int, x2: int, y2: int) {
    x == x1 || x == x2 || y == y1 || y == y2
  }

  /** Rewrite every cell (x, y) of the inclusive rectangle as `f(x, y, old tile)`. */
  function Paint(c: Canvas, x1: int, y1: int, x2: int, y2: int, f: (int, int, Tile) -> Tile): (r: Canvas)
    requires RectFits(c.w, c.h, x1, y1, x2, y2)
    ensures r.w == c.w && r.h == c.h
    ensures forall y, x :: r.at(x, y) == if InRect(x, y, x1, y1, x2, y2) then f(x, y, c.at(x, y)) else c.at(x, y)
  {
    c.(at := (x, y) => if InRect(x, y, x1, y1, x2, y2) then f(x, y, c.at(x, y)) else c.at(x, y))
  }

  /** One row of the nested loop on the grid: cells x..x2 of `row` become `f(col, y, old)`. */
  function PaintRow(row: seq<Tile>, y: int, x: int, x2: int, f: (int, int, Tile) -> Tile): (r: seq<Tile>)
    requires 0 <= x
    requires x <= x2 ==> x2 < |row|
    ensures |r| == |row|
    ensures forall c :: 0 <= c < |row| ==> r[c] == if x <= c <= x2 then f(c, y, row[c]) else row[c]
    decreases x2 - x + 1
  {
    if x > x2 then row
    else PaintRow(row[x := f(x, y, row[x])], y, x + 1, x2, f)
  }

  /**
   The loop `for (y = y0; y <= y2; y++) for (x = x1; x <= x2; x++)` on the
   grid itself, rewriting each visited cell in place, row by row.
   */
  function PaintRows(g: Tiles, w: nat, h: nat, y: int, x1: int, x2: int, y2: int, f: (int, int, Tile) -> Tile): (r: Tiles)
    requires WellFormed(g, w, h)
    requires RectFits(w, h, x1, y, x2, y2)
    ensures WellFormed(r, w, h)
    ensures forall row, c :: 0 <= row < h && 0 <= c < w ==>
      r[row][c] == if y <= row <= y2 && x1 <= c <= x2 then f(c, row, g[row][c]) else g[row][c]
    decreases y2 - y + 1
  {
    if y > y2 || x1 > x2 then g
    else PaintRows(g[y := PaintRow(g[y], y, x1, x2, f)], w, h, y + 1, x1, x2, y2, f)
  }

  /**
   Painting the canvas and rendering it gives the grid the source's in-place
   nested loop produces: each cell is visited once and rewritten from its own
   previous tile, so the visiting order does not matter.
   */
  lemma PaintIsLoop(c: Canvas, x1: int, y1: int, x2: int, y2: int, f: (int, int, Tile) -> Tile)
    requires RectFits(c.w, c.h, x1, y1, x2, y2)
    ensures Render(Paint(c, x1, y1, x2, y2, f)) == PaintRows(Render(c), c.w, c.h, y1, x1, x2, y2, f)
  {
    var a := Render(Paint(c, x1, y1, x2, y2, f));
    var b := PaintRows(Render(c), c.w, c.h, y1, x1, x2, y2, f);
    forall y | 0 <= y < c.h ensures a[y] == b[y] {
      assert forall x :: 0 <= x < c.w ==> a[y][x] == b[y][x];
    }
  }

  /** The body of `drawRect`'s inner loop: the tile a cell of the rectangle receives. */
  function RectTile(x1: int, y1: int, x2: int, y2: int, t: Tile, border: bool): (int, int, Tile) -> Tile {
    (x, y, prev) => if border && OnEdge(x, y, x1, y1, x2, y2) then WALL else t
  }

  /**
   `drawRect(x1, y1, x2, y2, type, border)`: exactly the cells of the inclusive
   rectangle are written; with a border its edge cells become WALL and the
   interior `t`, without one every cell becomes `t`.
   */
  function DrawRect(c: Canvas, x1: int, y1: int, x2: int, y2: int, t: Tile, border: bool): (r: Canvas)
    requires RectFits(c.w, c.h, x1, y1, x2, y2)
    ensures r.w == c.w && r.h == c.h
    ensures forall y, x :: !InRect(x, y, x1, y1, x2, y2) ==> r.at(x, y) == c.at(x, y)
    ensures forall y, x :: InRect(x, y, x1, y1, x2, y2) && border && OnEdge(x, y, x1, y1, x2, y2) ==> r.at(x, y) == WALL
    ensures forall y, x :: InRect(x, y, x1, y1, x2, y2) && !(border && OnEdge(x, y, x1, y1, x2, y2)) ==> r.at(x, y) == t
  {
    Paint(c, x1, y1, x2, y2, RectTile(x1, y1, x2, y2, t, border))
  }

  /** The tiles and the interactable registry under construction. */
  datatype MapState = MapState(canvas: Canvas, registry: Registry)

  /** `UpsertLookup` for every key at once. */
  lemma UpsertReads(reg: Registry, key: string, item: Interactable)
    ensures Lookup(Upsert(reg, key, item), key) == Some(item)
    ensures forall k :: k != key ==> Lookup(Upsert(reg, key, item), k) == Lookup(reg, k)
  {
    forall k { UpsertLookup(reg, key, item, k); }
  }

  /** A registry entry that is a chair names, in its id, the same row and column as its key. */
  ghost predicate ChairKeyed(e: Entry) {
    e.item.kind == Chair ==>
      Interaction.ParseChairId(e.item.id).Some? && Interaction.ParseChairId(e.item.id) == ParseKey(e.key)
  }

  /** Every chair's id names the same row and column as the key it is registered under. */
  ghost predicate ChairIdsMatchKeys(reg: Registry) {
    forall j :: 0 <= j < |reg| ==> ChairKeyed(reg[j])
  }

  /** The registry properties the build keeps: one entry per key, chairs findable from their ids. */
  ghost predicate GoodRegistry(reg: Registry) {
    UniqueKeys(reg) && ChairIdsMatchKeys(reg)
  }

  /**
   `place(x, y, type, interactable?)`: exactly one tile changes, and an
   interactable is stored under the key `"y,x"`, replacing any earlier one.
   */
  method Place(m: MapState, x: int, y: int, t: Tile, item: Option<Interactable>) returns (r: MapState)
    requires InMap(m.canvas.w, m.canvas.h, x, y)
    requires GoodRegistry(m.registry)
    requires item.Some? ==> x >= 0 && y >= 0 && ChairKeyed(Entry(CellKey(y, x), item.value))
    ensures r.canvas.w == m.canvas.w && r.canvas.h == m.canvas.h
    ensures r.canvas.at(x, y) == t
    ensures forall y', x' :: (x' != x || y' != y) ==> r.canvas.at(x', y') == m.canvas.at(x', y')
    ensures item.None? ==> r.registry == m.registry
    ensures item.Some? ==> Lookup(r.registry, CellKey(y, x)) == item
    ensures item.Some? ==> forall k :: k != CellKey(y, x) ==> Lookup(r.registry, k) == Lookup(m.registry, k)
    ensures GoodRegistry(r.registry)
  {
    var c := m.canvas.(at := (x', y') => if x' == x && y' == y then t else m.canvas.at(x', y'));
    if item.Some? {
      UpsertReads(m.registry, CellKey(y, x), item.value);
      r := MapState(c, Upsert(m.registry, CellKey(y, x), item.value));
    } else {
      r := MapState(c, m.registry);
    }
  }

  /** A direct registry assignment `interactables[key] = item`. */
  method Register(m: MapState, key: string, item: Interactable) returns (r: MapState)
    requires GoodRegistry(m.registry)
    requires ChairKeyed(Entry(key, item))
    ensures r.canvas == m.canvas
    ensures Lookup(r.registry, key) == Some(item)
    ensures forall k :: k != key ==> Lookup(r.registry, k) == Lookup(m.registry, k)
    ensures GoodRegistry(r.registry)
  {
    UpsertReads(m.registry, key, item);
    r := m.(registry := Upsert(m.registry, key, item));
  }

  /** The scatter pass favours the outskirts: columns below 8 or above 31, rows below 6 or above 24. */
  predicate IsEdge(x: int, y: int) {
    x < 8 || x > 31 || y < 6 || y > 24
  }

  /** What the scatter pass makes of one cell given its random number `r`. */
  function ScatterCell(prev: Tile, x: int, y: int, r: real): Tile {
    if IsEdge(x, y) && prev == GRASS then
      if r < 0.08 then TOMBSTONE
      else if r < 0.12 then TREE
      else if r < 0.15 then FLOWER
      else prev
    else prev
  }

  function ScatterTile(rand: (int, int) -> real): (int, int, Tile) -> Tile {
    (x, y, prev) => ScatterCell(prev, x, y, rand(y, x))
  }

  /**
   The graveyard scatter over the cells strictly inside the outer border;
   `rand(y, x)` is the `Math.random()` drawn for cell (x, y). Only GRASS cells
   of the outskirts change, and only into tombstones, trees or flowers.
   */
  function Scatter(c: Canvas, rand: (int, int) -> real): (r: Canvas)
    ensures r.w == c.w && r.h == c.h
    ensures forall y, x :: !(1 <= x < c.w - 1 && 1 <= y < c.h - 1) ==> r.at(x, y) == c.at(x, y)
    ensures forall y, x :: r.at(x, y) != c.at(x, y) ==>
      && c.at(x, y) == GRASS
      && IsEdge(x, y)
      && r.at(x, y) in {TOMBSTONE, TREE, FLOWER}
  {
    var r := Paint(c, 1, 1, c.w as int - 2, c.h as int - 2, ScatterTile(rand));
    assert forall y, x :: r.at(x, y) == (if InRect(x, y, 1, 1, c.w as int - 2, c.h as int - 2)
      then ScatterCell(c.at(x, y), x, y, rand(y, x)) else c.at(x, y));
    r
  }

  /** The scatter's choice by threshold: each decoration takes its own slice of the random range. */
  lemma ScatterThresholds(c: Canvas, rand: (int, int) -> real, x: int, y: int)
    requires 1 <= x < c.w - 1 && 1 <= y < c.h - 1
    requires IsEdge(x, y) && c.at(x, y) == GRASS
    ensures Scatter(c, rand).at(x, y) == TOMBSTONE <==> rand(y, x) < 0.08
    ensures Scatter(c, rand).at(x, y) == TREE <==> 0.08 <= rand(y, x) < 0.12
    ensures Scatter(c, rand).at(x, y) == FLOWER <==> 0.12 <= rand(y, x) < 0.15
    ensures Scatter(c, rand).at(x, y) == GRASS <==> 0.15 <= rand(y, x)
  {
    assert Scatter(c, rand).at(x, y) == ScatterCell(GRASS, x, y, rand(y, x));
  }

  /** The cells of the four path rectangles: top, bottom, left and right. */
  predicate OnPath(x: int, y: int) {
    || InRect(x, y, 18, 0, 21, 8)
    || InRect(x, y, 18, 24, 21, 29)
    || InRect(x, y, 0, 14, 8, 16)
    || InRect(x, y, 32, 14, 39, 16)
  }

  /** The four paths through the graveyard. */
  function Paths(c: Canvas): (r: Canvas)
    requires c.w >= BUILD_WIDTH && c.h >= BUILD_HEIGHT
    ensures r.w == c.w && r.h == c.h
    ensures forall y, x :: r.at(x, y) == if OnPath(x, y) then PATH else c.at(x, y)
  {
    var c1 := DrawRect(c, 18, 0, 21, 8, PATH, false);
    var c2 := DrawRect(c1, 18, 24, 21, 29, PATH, false);
    var c3 := DrawRect(c2, 0, 14, 8, 16, PATH, false);
    DrawRect(c3, 32, 14, 39, 16, PATH, false)
  }

  /** The id a pew or waiting chair carries: `${prefix}_${y}_${x}`. */
  function ChairId(prefix: string, y: nat, x: nat): string {
    prefix + "_" + NatToString(y) + "_" + NatToString(x)
  }

  function ChairAt(prefix: string, y: nat, x: nat): Interactable {
    Interactable(Chair, ChairId(prefix, y, x), None)
  }

  /** A chair the generator places at (x, y) is registered consistently. */
  lemma ChairAtMatches(prefix: string, y: nat, x: nat)
    requires '_' !in prefix
    ensures Interaction.ParseChairId(ChairAt(prefix, y, x).id) == Some((y, x))
    ensures ChairKeyed(Entry(CellKey(y, x), ChairAt(prefix, y, x)))
  {
    Interaction.ParseChairIdOf(prefix, y, x);
    ParseCellKey(y, x);
  }

  /** `place(x, y, BENCH, { type: 'chair', id: `pew_${y}_${x}` })`. */
  method PlacePew(m: MapState, y: nat, x: nat) returns (r: MapState)
    requires y < m.canvas.h && x < m.canvas.w
    requires GoodRegistry(m.registry)
    ensures r.canvas.w == m.canvas.w && r.canvas.h == m.canvas.h
    ensures GoodRegistry(r.registry)
    ensures r.canvas.at(x, y) == BENCH
    ensures forall y', x' :: (x' != x || y' != y) ==> r.canvas.at(x', y') == m.canvas.at(x', y')
    ensures Lookup(r.registry, CellKey(y, x)) == Some(ChairAt("pew", y, x))
    ensures forall k :: k != CellKey(y, x) ==> Lookup(r.registry, k) == Lookup(m.registry, k)
    ensures forall y': nat, x': nat :: (x' != x || y' != y) ==>
      Lookup(r.registry, CellKey(y', x')) == Lookup(m.registry, CellKey(y', x'))
  {
    ChairAtMatches("pew", y, x);
    r := Place(m, x, y, BENCH, Some(ChairAt("pew", y, x)));
    forall y': nat, x': nat | x' != x || y' != y
      ensures Lookup(r.registry, CellKey(y', x')) == Lookup(m.registry, CellKey(y', x'))
    {
      CellKeyInjective(y', x', y, x);
    }
  }

  /**
   One `forEach` over a bench row `y`, placing a registered pew in each of the
   columns `lo..hi`; the source lists them as `[12, 13, 14, 15, 16]` and
   `[23, 24, 25, 26, 27]`.
   */
  method PlacePewRow(m: MapState, y: nat, lo: nat, hi: nat) returns (r: MapState)
    requires y < m.canvas.h && lo <= hi < m.canvas.w
    requires GoodRegistry(m.registry)
    ensures r.canvas.w == m.canvas.w && r.canvas.h == m.canvas.h
    ensures GoodRegistry(r.registry)
    ensures forall y', x' :: (y' != y || x' < lo || x' > hi) ==> r.canvas.at(x', y') == m.canvas.at(x', y')
    ensures forall x :: lo <= x <= hi ==> r.canvas.at(x, y) == BENCH
    ensures forall x: nat :: lo <= x <= hi ==> Lookup(r.registry, CellKey(y, x)) == Some(ChairAt("pew", y, x))
    ensures forall y': nat, x': nat :: (y' != y || x' < lo || x' > hi) ==>
      Lookup(r.registry, CellKey(y', x')) == Lookup(m.registry, CellKey(y', x'))
    ensures forall k :: (forall x: nat :: lo <= x <= hi ==> k != CellKey(y, x)) ==>
      Lookup(r.registry, k) == Lookup(m.registry, k)
  {
    r := m;
    for x := lo to hi + 1
      invariant r.canvas.w == m.canvas.w && r.canvas.h == m.canvas.h
      invariant GoodRegistry(r.registry)
      invariant forall y', x' :: (y' != y || x' < lo || x' >= x) ==> r.canvas.at(x', y') == m.canvas.at(x', y')
      invariant forall x' :: lo <= x' < x ==> r.canvas.at(x', y) == BENCH
      invariant forall x': nat :: lo <= x' < x ==> Lookup(r.registry, CellKey(y, x')) == Some(ChairAt("pew", y, x'))
      invariant forall y': nat, x': nat :: (y' != y || x' < lo || x' >= x) ==>
        Lookup(r.registry, CellKey(y', x')) == Lookup(m.registry, CellKey(y', x'))
      invariant forall k :: (forall x': nat :: lo <= x' < x ==> k != CellKey(y, x')) ==>
        Lookup(r.registry, k) == Lookup(m.registry, k)
    {
      r := PlacePew(r, y, x);
    }
  }

  /** The columns of the left (12..16) and right (23..27) pews. */
  predicate PewColumn(x: int) {
    12 <= x <= 16 || 23 <= x <= 27
  }

  /** `k` is the key of a pew cell on one of the rows `rows`. */
  ghost predicate RowsPewKey(k: string, rows: seq<nat>) {
    exists y: nat, x: nat :: y in rows && PewColumn(x) && k == CellKey(y, x)
  }

  /**
   `r` is `m` with the pews of the bench rows `rows` laid: every pew cell of
   those rows holds a bench registered as the chair `pew_y_x`, and no other
   cell and no other key has changed.
   */
  ghost predicate PewRowsLaid(m: MapState, r: MapState, rows: seq<nat>) {
    && r.canvas.w == m.canvas.w && r.canvas.h == m.canvas.h
    && (forall y, x :: (y !in rows || !PewColumn(x)) ==> r.canvas.at(x, y) == m.canvas.at(x, y))
    && (forall y, x :: y in rows && PewColumn(x) ==> r.canvas.at(x, y) == BENCH)
    && (forall y: nat, x: nat :: y in rows && PewColumn(x) ==>
          Lookup(r.registry, CellKey(y, x)) == Some(ChairAt("pew", y, x)))
    && (forall y: nat, x: nat :: y !in rows ==> Lookup(r.registry, CellKey(y, x)) == Lookup(m.registry, CellKey(y, x)))
    && (forall k :: !RowsPewKey(k, rows) ==> Lookup(r.registry, k) == Lookup(m.registry, k))
  }

  /** One bench row `y`: the left pews, then the right pews. */
  method PlaceBenchRow(m: MapState, y: nat) returns (r: MapState)
    requires m.canvas.w >= 28 && y < m.canvas.h
    requires GoodRegistry(m.registry)
    ensures GoodRegistry(r.registry)
    ensures PewRowsLaid(m, r, [y])
  {
    r := PlacePewRow(m, y, 12, 16);
    r := PlacePewRow(r, y, 23, 27);
  }

  /** Laying one more bench row extends the rows laid so far. */
  lemma PewRowsStep(m: MapState, r0: MapState, r1: MapState, rows: seq<nat>, y: nat)
    requires PewRowsLaid(m, r0, rows)
    requires PewRowsLaid(r0, r1, [y])
    ensures PewRowsLaid(m, r1, rows + [y])
  {
  }

  /** The rows laid after step `i` of the loop are the rows laid before it and row `ys[i]`. */
  lemma PrefixStep(ys: seq<nat>, i: nat)
    requires i < |ys|
    ensures ys[..i + 1] == ys[..i] + [ys[i]]
  {
  }

  /** `benchRows.forEach`: left pews at columns 12..16 and right pews at 23..27 of each bench row. */
  method PlacePews(m: MapState, ys: seq<nat>) returns (r: MapState)
    requires m.canvas.w >= 28
    requires forall i :: 0 <= i < |ys| ==> ys[i] < m.canvas.h
    requires GoodRegistry(m.registry)
    ensures GoodRegistry(r.registry)
    ensures PewRowsLaid(m, r, ys)
  {
    r := m;
    for i := 0 to |ys|
      invariant GoodRegistry(r.registry)
      invariant PewRowsLaid(m, r, ys[..i])
    {
      var r0 := r;
      r := PlaceBenchRow(r, ys[i]);
      PewRowsStep(m, r0, r, ys[..i], ys[i]);
      PrefixStep(ys, i);
    }
    assert ys[..|ys|] == ys;
  }

  /** The chapel rows that hold pews, as the source lists them. */
  const BENCH_ROWS: seq<nat> := [9, 11, 13, 15]

  predicate PewRow(y: int) {
    y == 9 || y == 11 || y == 13 || y == 15
  }

  /** `k` is the key of a pew cell. */
  ghost predicate IsPewKey(k: string) {
    exists y: nat, x: nat :: PewRow(y) && PewColumn(x) && k == CellKey(y, x)
  }

  /** Every pew cell of every bench row holds a bench. */
  ghost predicate PewsPlaced(at: (int, int) -> Tile) {
    forall y, x :: PewRow(y) && PewColumn(x) ==> at(x, y) == BENCH
  }

  /** Every pew cell of every bench row is registered as the chair `pew_y_x`. */
  ghost predicate PewsRegistered(reg: Registry) {
    forall y: nat, x: nat :: PewRow(y) && PewColumn(x) ==> Lookup(reg, CellKey(y, x)) == Some(ChairAt("pew", y, x))
  }

  /** An inner chapel cell, columns 11 to 28 of rows 7 to 16, off the aisle, the altar candles and the pews. */
  predicate ChapelFloorCell(x: int, y: int) {
    && InRect(x, y, 11, 7, 28, 16)
    && x != 19 && x != 20
    && !(y == 8 && (x == 18 || x == 21))
    && !(PewRow(y) && PewColumn(x))
  }

  /** The chapel floor. */
  ghost predicate ChapelFloor(at: (int, int) -> Tile) {
    forall y, x :: ChapelFloorCell(x, y) ==> at(x, y) == FLOOR
  }

  /**
   The chapel room as drawn before its pews: the north wall and the side walls
   down to row 16, the altar flanked by candles on row 8, the carpet aisle in
   columns 19 and 20 everywhere else from row 7 to row 16, and floor elsewhere.
   */
  ghost predicate ChapelShell(at: (int, int) -> Tile) {
    && (forall x :: 10 <= x <= 29 ==> at(x, 6) == WALL)
    && (forall y :: 6 <= y <= 16 ==> at(10, y) == WALL && at(29, y) == WALL)
    && at(19, 8) == ALTAR && at(20, 8) == ALTAR
    && at(18, 8) == CANDLE && at(21, 8) == CANDLE
    && (forall y :: 7 <= y <= 16 && y != 8 ==> at(19, y) == CARPET && at(20, y) == CARPET)
    && ChapelFloor(at)
  }

  /** The finished chapel above the divider: its shell and its pews. */
  ghost predicate ChapelFurnished(at: (int, int) -> Tile) {
    ChapelShell(at) && PewsPlaced(at)
  }

  /** The divider on row 17: wall from column 10 to 29 with the double door at columns 19 and 20. */
  ghost predicate Divider(at: (int, int) -> Tile) {
    forall x :: 10 <= x <= 29 ==> at(x, 17) == if x == 19 || x == 20 then DOOR else WALL
  }

  /** The south entrance with its outside candles, the side doors and the desk. */
  ghost predicate Entrance(at: (int, int) -> Tile) {
    && at(19, 24) == DOOR && at(20, 24) == DOOR
    && at(18, 24) == CANDLE && at(21, 24) == CANDLE
    && at(10, 20) == DOOR && at(29, 20) == DOOR
    && at(24, 20) == DESK && at(25, 20) == DESK
  }

  /** The eight cells the entrance step writes: the south doors and candles on row 24, the side doors and the desk on row 20. */
  predicate EntranceCell(x: int, y: int) {
    || (y == 24 && 18 <= x <= 21)
    || (y == 20 && (x == 10 || x == 29 || x == 24 || x == 25))
  }

  /** The six cells the waiting area writes: the two chairs in column 12, and a plant and a candle in each side corner. */
  predicate WaitingCell(x: int, y: int) {
    || (x == 12 && (y == 19 || y == 21))
    || ((x == 11 || x == 28) && (y == 23 || y == 18))
  }

  /** The two waiting chairs and the plants and candles in the corners. */
  ghost predicate WaitingFurnished(at: (int, int) -> Tile) {
    && at(12, 19) == BENCH && at(12, 21) == BENCH
    && at(11, 23) == FLOWER && at(28, 23) == FLOWER
    && at(11, 18) == CANDLE && at(28, 18) == CANDLE
  }

  /**
   The reception's outer walls as drawn: columns 10 and 29 from row 18 to
   row 24, and row 24 from column 10 to 29; and the floor inside them,
   columns 11 to 28 of rows 18 to 23.
   */
  ghost predicate ReceptionRoom(at: (int, int) -> Tile) {
    && (forall y :: 18 <= y <= 24 ==> at(10, y) == WALL && at(29, y) == WALL)
    && (forall x :: 10 <= x <= 29 ==> at(x, 24) == WALL)
    && (forall y, x :: InRect(x, y, 11, 18, 28, 23) ==> at(x, y) == FLOOR)
  }

  /** The finished reception's outer walls: the drawn walls less the doors and candles set into them. */
  ghost predicate ReceptionWalls(at: (int, int) -> Tile) {
    && (forall y :: 18 <= y <= 23 && y != 20 ==> at(10, y) == WALL && at(29, y) == WALL)
    && (forall x :: 10 <= x <= 29 && (x < 18 || x > 21) ==> at(x, 24) == WALL)
  }

  /** The finished reception's floor: every inner cell but the desk and the waiting area's furniture. */
  ghost predicate ReceptionFloor(at: (int, int) -> Tile) {
    forall y, x :: InRect(x, y, 11, 18, 28, 23) && !EntranceCell(x, y) && !WaitingCell(x, y) ==> at(x, y) == FLOOR
  }

  /** The finished reception. */
  ghost predicate ReceptionFurnished(at: (int, int) -> Tile) {
    Divider(at) && Entrance(at) && WaitingFurnished(at) && ReceptionWalls(at) && ReceptionFloor(at)
  }

  /**
   The reception's four stages compose: the entrance and the waiting area
   write only their own cells, away from the divider and from each other, and
   the notice board's backing wall agrees with the divider.
   */
  lemma ReceptionAssembled(a0: (int, int) -> Tile, a1: (int, int) -> Tile, a2: (int, int) -> Tile, a3: (int, int) -> Tile)
    requires Divider(a0) && ReceptionRoom(a0)
    requires forall y, x :: !EntranceCell(x, y) ==> a1(x, y) == a0(x, y)
    requires Entrance(a1)
    requires forall y, x :: (x != 15 || y != 17) ==> a2(x, y) == a1(x, y)
    requires a2(15, 17) == WALL
    requires forall y, x :: !WaitingCell(x, y) ==> a3(x, y) == a2(x, y)
    requires WaitingFurnished(a3)
    ensures ReceptionFurnished(a3)
  {
    assert Divider(a1);
    assert Divider(a2);
    ReceptionRoomKept(a0, a3);
  }

  /** The drawn walls and floor survive the later stages everywhere but the cells those stages write. */
  lemma ReceptionRoomKept(a0: (int, int) -> Tile, a3: (int, int) -> Tile)
    requires ReceptionRoom(a0)
    requires forall y, x :: !EntranceCell(x, y) && !WaitingCell(x, y) && (x != 15 || y != 17) ==> a3(x, y) == a0(x, y)
    ensures ReceptionWalls(a3) && ReceptionFloor(a3)
  {
  }

  /** The reception's four stages write only inside its walls, columns 10 to 29 of rows 17 to 24. */
  lemma ReceptionFramed(a0: (int, int) -> Tile, a1: (int, int) -> Tile, a2: (int, int) -> Tile, a3: (int, int) -> Tile, a4: (int, int) -> Tile)
    requires forall y, x :: !InRect(x, y, 10, 17, 29, 24) ==> a1(x, y) == a0(x, y)
    requires forall y, x :: !EntranceCell(x, y) ==> a2(x, y) == a1(x, y)
    requires forall y, x :: (x != 15 || y != 17) ==> a3(x, y) == a2(x, y)
    requires forall y, x :: !WaitingCell(x, y) ==> a4(x, y) == a3(x, y)
    ensures forall y, x :: !InRect(x, y, 10, 17, 29, 24) ==> a4(x, y) == a0(x, y)
  {
  }

  /** The chapel room survives the pews, which write only pew cells. */
  lemma ChapelShellKept(a1: (int, int) -> Tile, a2: (int, int) -> Tile)
    requires ChapelShell(a1)
    requires forall y, x :: (!PewRow(y) || !PewColumn(x)) ==> a2(x, y) == a1(x, y)
    ensures ChapelShell(a2)
  {
  }

  /** The chapel survives any later step that leaves rows 0 to 16 of the build area alone. */
  lemma ChapelKept(a1: (int, int) -> Tile, a2: (int, int) -> Tile)
    requires ChapelFurnished(a1)
    requires forall y, x :: 0 <= y < 17 && 0 <= x < BUILD_WIDTH ==> a2(x, y) == a1(x, y)
    ensures ChapelFurnished(a2)
  {
  }

  /** The reception survives any later step that leaves rows 17 to 24 of the build area alone. */
  lemma ReceptionKept(a1: (int, int) -> Tile, a2: (int, int) -> Tile)
    requires ReceptionFurnished(a1)
    requires forall y, x :: 17 <= y <= 24 && 0 <= x < BUILD_WIDTH ==> a2(x, y) == a1(x, y)
    ensures ReceptionFurnished(a2)
  {
  }

  const PRIEST: Interactable := Interactable(Priest, "priest", Some("Shh..."))
  const RECEPTIONIST: Interactable := Interactable(Receptionist, "receptionist", Some("Applications here."))
  const NOTICE_BOARD: Interactable := Interactable(NoticeBoard, "notice_board", Some("History"))
  const WAIT_CHAIR_19: Interactable := Interactable(Chair, "wait_19_12", None)
  const WAIT_CHAIR_21: Interactable := Interactable(Chair, "wait_21_12", None)

  /** The keys the reception writes: the receptionist, the notice board and the waiting chairs. */
  const RECEPTION_KEYS: set<string> := {"25,20", "16,15", "19,12", "21,12"}

  /** The keys the build writes literally or for a literal cell: the priest's and the reception's. */
  const LITERAL_KEYS: set<string> := RECEPTION_KEYS + {"8,19"}

  /** Everything the build registers: the priest, the receptionist, the notice board, both waiting chairs and every pew. */
  ghost predicate BuildingRegistry(reg: Registry) {
    && Lookup(reg, "8,19") == Some(PRIEST)
    && Lookup(reg, "25,20") == Some(RECEPTIONIST)
    && Lookup(reg, "16,15") == Some(NOTICE_BOARD)
    && Lookup(reg, "19,12") == Some(WAIT_CHAIR_19)
    && Lookup(reg, "21,12") == Some(WAIT_CHAIR_21)
    && PewsRegistered(reg)
  }

  /** The walled chapel floor with the carpet aisle laid over it, before the altar. */
  lemma ChapelFloorDrawn(c: Canvas)
    requires c.w >= BUILD_WIDTH && c.h >= BUILD_HEIGHT
    ensures var d := DrawRect(DrawRect(c, 10, 6, 29, 17, FLOOR, true), 19, 7, 20, 17, CARPET, false);
      && (forall y, x :: !InRect(x, y, 10, 6, 29, 17) ==> d.at(x, y) == c.at(x, y))
      && (forall x :: 10 <= x <= 29 ==> d.at(x, 6) == WALL)
      && (forall y :: 6 <= y <= 16 ==> d.at(10, y) == WALL && d.at(29, y) == WALL)
      && (forall y :: 7 <= y <= 17 ==> d.at(19, y) == CARPET && d.at(20, y) == CARPET)
      && (forall y, x :: InRect(x, y, 11, 7, 28, 16) && x != 19 && x != 20 ==> d.at(x, y) == FLOOR)
  {
  }

  /** The chapel's walls and floor, carpet aisle, altar and candles, all within columns 10 to 29 of rows 6 to 17. */
  method ChapelRoom(m: MapState) returns (r: MapState)
    requires m.canvas.w >= BUILD_WIDTH && m.canvas.h >= BUILD_HEIGHT
    requires GoodRegistry(m.registry)
    ensures r.canvas.w == m.canvas.w && r.canvas.h == m.canvas.h
    ensures r.registry == m.registry
    ensures forall y, x :: !InRect(x, y, 10, 6, 29, 17) ==> r.canvas.at(x, y) == m.canvas.at(x, y)
    ensures ChapelShell(r.canvas.at)
  {
    ChapelFloorDrawn(m.canvas);
    r := m.(canvas := DrawRect(m.canvas, 10, 6, 29, 17, FLOOR, true));
    r := r.(canvas := DrawRect(r.canvas, 19, 7, 20, 17, CARPET, false));
    var floor := r.canvas;
    r := Altar(r);
    ChapelShellDrawn(m.canvas.at, floor.at, r.canvas.at);
  }

  /** The altar on row 8, columns 19 and 20, flanked by candles at columns 18 and 21. */
  method Altar(m: MapState) returns (r: MapState)
    requires m.canvas.w >= BUILD_WIDTH && m.canvas.h >= BUILD_HEIGHT
    requires GoodRegistry(m.registry)
    ensures r.canvas.w == m.canvas.w && r.canvas.h == m.canvas.h
    ensures r.registry == m.registry
    ensures forall y, x :: (y != 8 || x < 18 || x > 21) ==> r.canvas.at(x, y) == m.canvas.at(x, y)
    ensures r.canvas.at(19, 8) == ALTAR && r.canvas.at(20, 8) == ALTAR
    ensures r.canvas.at(18, 8) == CANDLE && r.canvas.at(21, 8) == CANDLE
  {
    r := Place(m, 19, 8, ALTAR, None);
    r := Place(r, 20, 8, ALTAR, None);
    r := Place(r, 18, 8, CANDLE, None);
    r := Place(r, 21, 8, CANDLE, None);
  }

  /** The walled floor and aisle, with the altar set on them, make the chapel room. */
  lemma ChapelShellDrawn(a0: (int, int) -> Tile, a1: (int, int) -> Tile, a2: (int, int) -> Tile)
    requires forall y, x :: !InRect(x, y, 10, 6, 29, 17) ==> a1(x, y) == a0(x, y)
    requires forall x :: 10 <= x <= 29 ==> a1(x, 6) == WALL
    requires forall y :: 6 <= y <= 16 ==> a1(10, y) == WALL && a1(29, y) == WALL
    requires forall y :: 7 <= y <= 17 ==> a1(19, y) == CARPET && a1(20, y) == CARPET
    requires forall y, x :: InRect(x, y, 11, 7, 28, 16) && x != 19 && x != 20 ==> a1(x, y) == FLOOR
    requires forall y, x :: (y != 8 || x < 18 || x > 21) ==> a2(x, y) == a1(x, y)
    requires a2(19, 8) == ALTAR && a2(20, 8) == ALTAR
    requires a2(18, 8) == CANDLE && a2(21, 8) == CANDLE
    ensures forall y, x :: !InRect(x, y, 10, 6, 29, 17) ==> a2(x, y) == a0(x, y)
    ensures ChapelShell(a2)
  {
  }

  /** The pews of `benchRows`, placed and registered by `PlacePews`, are the pews of every `PewRow`. */
  lemma BenchRowsPlaced(c: Canvas, reg: Registry)
    requires forall y, x :: y in BENCH_ROWS && PewColumn(x) ==> c.at(x, y) == BENCH
    requires forall y: nat, x: nat :: y in BENCH_ROWS && PewColumn(x) ==>
      Lookup(reg, CellKey(y, x)) == Some(ChairAt("pew", y, x))
    ensures PewsPlaced(c.at)
    ensures PewsRegistered(reg)
  {
    forall y, x | PewRow(y) && PewColumn(x) ensures c.at(x, y) == BENCH {
      assert BENCH_ROWS[(y - 9) / 2] == y;
    }
    forall y: nat, x: nat | PewRow(y) && PewColumn(x)
      ensures Lookup(reg, CellKey(y, x)) == Some(ChairAt("pew", y, x))
    {
      assert BENCH_ROWS[(y - 9) / 2] == y;
    }
  }

  /** No pew's key is one of the keys the build writes literally. */
  lemma PewKeysAvoid(y: nat, x: nat)
    requires PewRow(y)
    ensures CellKey(y, x) !in LITERAL_KEYS
  {
    KeyLiterals();
    CellKeyInjective(y, x, 8, 19);
    CellKeyInjective(y, x, 25, 20);
    CellKeyInjective(y, x, 16, 15);
    CellKeyInjective(y, x, 19, 12);
    CellKeyInjective(y, x, 21, 12);
  }

  /** The priest's key is not one the reception writes. */
  lemma PriestKeyAvoids()
    ensures "8,19" !in RECEPTION_KEYS
  {
    KeyLiterals();
    CellKeyInjective(8, 19, 25, 20);
    CellKeyInjective(8, 19, 16, 15);
    CellKeyInjective(8, 19, 19, 12);
    CellKeyInjective(8, 19, 21, 12);
  }

  /** The pews stay registered through any later step that writes only literal keys. */
  lemma PewsRegisteredKept(reg1: Registry, reg2: Registry)
    requires PewsRegistered(reg1)
    requires forall k :: k !in LITERAL_KEYS ==> Lookup(reg2, k) == Lookup(reg1, k)
    ensures PewsRegistered(reg2)
  {
    forall y: nat, x: nat | PewRow(y) && PewColumn(x)
      ensures Lookup(reg2, CellKey(y, x)) == Some(ChairAt("pew", y, x))
    {
      PewKeysAvoid(y, x);
    }
  }

  /** The chapel, columns 10 to 29 of rows 6 to 17: the room, the pews and the priest. */
  method Chapel(m: MapState) returns (r: MapState)
    requires m.canvas.w >= BUILD_WIDTH && m.canvas.h >= BUILD_HEIGHT
    requires GoodRegistry(m.registry)
    ensures r.canvas.w == m.canvas.w && r.canvas.h == m.canvas.h
    ensures GoodRegistry(r.registry)
    ensures forall y, x :: !InRect(x, y, 10, 6, 29, 17) ==> r.canvas.at(x, y) == m.canvas.at(x, y)
    ensures ChapelFurnished(r.canvas.at)
    ensures Lookup(r.registry, "8,19") == Some(PRIEST)
    ensures PewsRegistered(r.registry)
    ensures forall k :: k != "8,19" && !IsPewKey(k) ==> Lookup(r.registry, k) == Lookup(m.registry, k)
  {
    r := ChapelRoom(m);
    var room := r.canvas;
    r := PlacePews(r, BENCH_ROWS);
    BenchRowsPlaced(r.canvas, r.registry);
    forall y, x | !PewRow(y) || !PewColumn(x) ensures r.canvas.at(x, y) == room.at(x, y) {
      assert !PewRow(y) ==> y !in BENCH_ROWS;
    }
    ChapelShellKept(room.at, r.canvas.at);
    var pews := r.registry;
    KeyLiterals();
    r := Register(r, "8,19", PRIEST);
    PewsRegisteredKept(pews, r.registry);
    ChapelFramed(m.canvas.at, room.at, r.canvas.at);
    ChapelKeysFramed(m.registry, pews, r.registry);
  }

  /** The chapel's room and pews write only inside its walls, columns 10 to 29 of rows 6 to 17. */
  lemma ChapelFramed(a0: (int, int) -> Tile, a1: (int, int) -> Tile, a2: (int, int) -> Tile)
    requires forall y, x :: !InRect(x, y, 10, 6, 29, 17) ==> a1(x, y) == a0(x, y)
    requires forall y, x :: (y !in BENCH_ROWS || !PewColumn(x)) ==> a2(x, y) == a1(x, y)
    ensures forall y, x :: !InRect(x, y, 10, 6, 29, 17) ==> a2(x, y) == a0(x, y)
  {
  }

  /** The chapel registers only its pews and the priest. */
  lemma ChapelKeysFramed(reg0: Registry, reg1: Registry, reg2: Registry)
    requires forall k :: !RowsPewKey(k, BENCH_ROWS) ==> Lookup(reg1, k) == Lookup(reg0, k)
    requires forall k :: k != "8,19" ==> Lookup(reg2, k) == Lookup(reg1, k)
    ensures forall k :: k != "8,19" && !IsPewKey(k) ==> Lookup(reg2, k) == Lookup(reg0, k)
  {
  }

  /** The reception's outer walls and floor, the divider wall on row 17 and its double door. */
  method ReceptionShell(m: MapState) returns (r: MapState)
    requires m.canvas.w >= BUILD_WIDTH && m.canvas.h >= BUILD_HEIGHT
    requires GoodRegistry(m.registry)
    ensures r.canvas.w == m.canvas.w && r.canvas.h == m.canvas.h
    ensures r.registry == m.registry
    ensures forall y, x :: !InRect(x, y, 10, 17, 29, 24) ==> r.canvas.at(x, y) == m.canvas.at(x, y)
    ensures Divider(r.canvas.at)
    ensures ReceptionRoom(r.canvas.at)
  {
    r := m.(canvas := DrawRect(m.canvas, 10, 17, 29, 24, FLOOR, true));
    r := r.(canvas := DrawRect(r.canvas, 11, 17, 28, 17, WALL, false));
    r := Place(r, 19, 17, DOOR, None);
    r := Place(r, 20, 17, DOOR, None);
  }

  /** The waiting-chair ids are written out literally; they name their own cells. */
  lemma WaitChairIds()
    ensures ChairKeyed(Entry("19,12", WAIT_CHAIR_19))
    ensures ChairKeyed(Entry("21,12", WAIT_CHAIR_21))
  {
    KeyLiterals();
    assert ChairAt("wait", 19, 12) == WAIT_CHAIR_19;
    assert ChairAt("wait", 21, 12) == WAIT_CHAIR_21;
    ChairAtMatches("wait", 19, 12);
    ChairAtMatches("wait", 21, 12);
  }

  /** The registry keys of the cells the build registers, spelled out. */
  lemma KeyLiterals()
    ensures CellKey(8, 19) == "8,19"
    ensures CellKey(19, 12) == "19,12" && CellKey(21, 12) == "21,12"
    ensures CellKey(25, 20) == "25,20" && CellKey(16, 15) == "16,15"
  {
    TwoDigits(19);
    TwoDigits(12);
    TwoDigits(21);
    TwoDigits(25);
    TwoDigits(20);
    TwoDigits(16);
    TwoDigits(15);
  }

  /** The south double door on row 24, flanked by candles. */
  method SouthEntrance(m: MapState) returns (r: MapState)
    requires m.canvas.w >= BUILD_WIDTH && m.canvas.h >= BUILD_HEIGHT
    requires GoodRegistry(m.registry)
    ensures r.canvas.w == m.canvas.w && r.canvas.h == m.canvas.h
    ensures r.registry == m.registry
    ensures forall y, x :: (y != 24 || x < 18 || x > 21) ==> r.canvas.at(x, y) == m.canvas.at(x, y)
    ensures r.canvas.at(19, 24) == DOOR && r.canvas.at(20, 24) == DOOR
    ensures r.canvas.at(18, 24) == CANDLE && r.canvas.at(21, 24) == CANDLE
  {
    r := Place(m, 19, 24, DOOR, None);
    r := Place(r, 20, 24, DOOR, None);
    r := Place(r, 18, 24, CANDLE, None);
    r := Place(r, 21, 24, CANDLE, None);
  }

  /** The side doors and the desk, all on row 20. */
  method SideDoorsAndDesk(m: MapState) returns (r: MapState)
    requires m.canvas.w >= BUILD_WIDTH && m.canvas.h >= BUILD_HEIGHT
    requires GoodRegistry(m.registry)
    ensures r.canvas.w == m.canvas.w && r.canvas.h == m.canvas.h
    ensures r.registry == m.registry
    ensures forall y, x :: (y != 20 || (x != 10 && x != 29 && x != 24 && x != 25)) ==> r.canvas.at(x, y) == m.canvas.at(x, y)
    ensures r.canvas.at(10, 20) == DOOR && r.canvas.at(29, 20) == DOOR
    ensures r.canvas.at(24, 20) == DESK && r.canvas.at(25, 20) == DESK
  {
    r := Place(m, 10, 20, DOOR, None);
    r := Place(r, 29, 20, DOOR, None);
    r := Place(r, 24, 20, DESK, None);
    r := Place(r, 25, 20, DESK, None);
  }

  /** The south entrance with its candles, the side doors and the desk. */
  method EntranceAndDesk(m: MapState) returns (r: MapState)
    requires m.canvas.w >= BUILD_WIDTH && m.canvas.h >= BUILD_HEIGHT
    requires GoodRegistry(m.registry)
    ensures r.canvas.w == m.canvas.w && r.canvas.h == m.canvas.h
    ensures r.registry == m.registry
    ensures forall y, x :: !EntranceCell(x, y) ==> r.canvas.at(x, y) == m.canvas.at(x, y)
    ensures Entrance(r.canvas.at)
  {
    r := SouthEntrance(m);
    r := SideDoorsAndDesk(r);
  }

  /** The receptionist's and notice board's literal registrations and the board's backing wall. */
  method DeskAndNotice(m: MapState) returns (r: MapState)
    requires m.canvas.w >= BUILD_WIDTH && m.canvas.h >= BUILD_HEIGHT
    requires GoodRegistry(m.registry)
    ensures r.canvas.w == m.canvas.w && r.canvas.h == m.canvas.h
    ensures GoodRegistry(r.registry)
    ensures forall y, x :: (x != 15 || y != 17) ==> r.canvas.at(x, y) == m.canvas.at(x, y)
    ensures r.canvas.at(15, 17) == WALL
    ensures Lookup(r.registry, "25,20") == Some(RECEPTIONIST)
    ensures Lookup(r.registry, "16,15") == Some(NOTICE_BOARD)
    ensures forall k :: k != "25,20" && k != "16,15" ==> Lookup(r.registry, k) == Lookup(m.registry, k)
  {
    r := Register(m, "25,20", RECEPTIONIST);
    r := Place(r, 15, 17, WALL, None);
    r := Register(r, "16,15", NOTICE_BOARD);
  }

  /** The two waiting chairs, benches registered under their literal ids. */
  method WaitingChairs(m: MapState) returns (r: MapState)
    requires m.canvas.w >= BUILD_WIDTH && m.canvas.h >= BUILD_HEIGHT
    requires GoodRegistry(m.registry)
    ensures r.canvas.w == m.canvas.w && r.canvas.h == m.canvas.h
    ensures GoodRegistry(r.registry)
    ensures forall y, x :: (x != 12 || (y != 19 && y != 21)) ==> r.canvas.at(x, y) == m.canvas.at(x, y)
    ensures r.canvas.at(12, 19) == BENCH && r.canvas.at(12, 21) == BENCH
    ensures Lookup(r.registry, "19,12") == Some(WAIT_CHAIR_19)
    ensures Lookup(r.registry, "21,12") == Some(WAIT_CHAIR_21)
    ensures forall k :: k != "19,12" && k != "21,12" ==> Lookup(r.registry, k) == Lookup(m.registry, k)
  {
    WaitChairIds();
    KeyLiterals();
    r := Place(m, 12, 19, BENCH, Some(WAIT_CHAIR_19));
    r := Place(r, 12, 21, BENCH, Some(WAIT_CHAIR_21));
  }

  /** The plants and candles in the reception's side corners. */
  method WaitingDecor(m: MapState) returns (r: MapState)
    requires m.canvas.w >= BUILD_WIDTH && m.canvas.h >= BUILD_HEIGHT
    requires GoodRegistry(m.registry)
    ensures r.canvas.w == m.canvas.w && r.canvas.h == m.canvas.h
    ensures r.registry == m.registry
    ensures forall y, x :: ((x != 11 && x != 28) || (y != 23 && y != 18)) ==> r.canvas.at(x, y) == m.canvas.at(x, y)
    ensures r.canvas.at(11, 23) == FLOWER && r.canvas.at(28, 23) == FLOWER
    ensures r.canvas.at(11, 18) == CANDLE && r.canvas.at(28, 18) == CANDLE
  {
    r := Place(m, 11, 23, FLOWER, None);
    r := Place(r, 28, 23, FLOWER, None);
    r := Place(r, 11, 18, CANDLE, None);
    r := Place(r, 28, 18, CANDLE, None);
  }

  /** The waiting area: the two chairs, then the plants and candles. */
  method WaitingArea(m: MapState) returns (r: MapState)
    requires m.canvas.w >= BUILD_WIDTH && m.canvas.h >= BUILD_HEIGHT
    requires GoodRegistry(m.registry)
    ensures r.canvas.w == m.canvas.w && r.canvas.h == m.canvas.h
    ensures GoodRegistry(r.registry)
    ensures forall y, x :: !WaitingCell(x, y) ==> r.canvas.at(x, y) == m.canvas.at(x, y)
    ensures WaitingFurnished(r.canvas.at)
    ensures Lookup(r.registry, "19,12") == Some(WAIT_CHAIR_19)
    ensures Lookup(r.registry, "21,12") == Some(WAIT_CHAIR_21)
    ensures forall k :: k != "19,12" && k != "21,12" ==> Lookup(r.registry, k) == Lookup(m.registry, k)
  {
    r := WaitingChairs(m);
    r := WaitingDecor(r);
  }

  /** The reception room, columns 10 to 29 of rows 17 to 24: shell, doors, desk, notice board and waiting area. */
  method Reception(m: MapState) returns (r: MapState)
    requires m.canvas.w >= BUILD_WIDTH && m.canvas.h >= BUILD_HEIGHT
    requires GoodRegistry(m.registry)
    ensures r.canvas.w == m.canvas.w && r.canvas.h == m.canvas.h
    ensures GoodRegistry(r.registry)
    ensures forall y, x :: !InRect(x, y, 10, 17, 29, 24) ==> r.canvas.at(x, y) == m.canvas.at(x, y)
    ensures ReceptionFurnished(r.canvas.at)
    ensures Lookup(r.registry, "25,20") == Some(RECEPTIONIST)
    ensures Lookup(r.registry, "16,15") == Some(NOTICE_BOARD)
    ensures Lookup(r.registry, "19,12") == Some(WAIT_CHAIR_19)
    ensures Lookup(r.registry, "21,12") == Some(WAIT_CHAIR_21)
    ensures forall k :: k !in RECEPTION_KEYS ==> Lookup(r.registry, k) == Lookup(m.registry, k)
  {
    r := ReceptionShell(m);
    var shell := r.canvas;
    r := EntranceAndDesk(r);
    var entrance := r.canvas;
    r := DeskAndNotice(r);
    var desk := r.canvas;
    var staff := r.registry;
    r := WaitingArea(r);
    ReceptionAssembled(shell.at, entrance.at, desk.at, r.canvas.at);
    ReceptionFramed(m.canvas.at, shell.at, entrance.at, desk.at, r.canvas.at);
    ReceptionKeys(m.registry, staff, r.registry);
  }

  /** The reception's registrations: the desk and notice board first, then the waiting chairs under different keys. */
  lemma ReceptionKeys(reg0: Registry, reg1: Registry, reg2: Registry)
    requires Lookup(reg1, "25,20") == Some(RECEPTIONIST) && Lookup(reg1, "16,15") == Some(NOTICE_BOARD)
    requires forall k :: k != "25,20" && k != "16,15" ==> Lookup(reg1, k) == Lookup(reg0, k)
    requires Lookup(reg2, "19,12") == Some(WAIT_CHAIR_19) && Lookup(reg2, "21,12") == Some(WAIT_CHAIR_21)
    requires forall k :: k != "19,12" && k != "21,12" ==> Lookup(reg2, k) == Lookup(reg1, k)
    ensures Lookup(reg2, "25,20") == Some(RECEPTIONIST) && Lookup(reg2, "16,15") == Some(NOTICE_BOARD)
    ensures Lookup(reg2, "19,12") == Some(WAIT_CHAIR_19) && Lookup(reg2, "21,12") == Some(WAIT_CHAIR_21)
    ensures forall k :: k !in RECEPTION_KEYS ==> Lookup(reg2, k) == Lookup(reg0, k)
  {
    KeyLiterals();
    CellKeyInjective(19, 12, 25, 20);
    CellKeyInjective(19, 12, 16, 15);
    CellKeyInjective(21, 12, 25, 20);
    CellKeyInjective(21, 12, 16, 15);
  }

  /**
   The building, chapel then reception, drawn over the graveyard; every cell
   outside columns 10 to 29 of rows 6 to 24, and every key other than the
   building's own, is left alone.
   */
  method Building(m: MapState) returns (r: MapState)
    requires m.canvas.w >= BUILD_WIDTH && m.canvas.h >= BUILD_HEIGHT
    requires GoodRegistry(m.registry)
    ensures r.canvas.w == m.canvas.w && r.canvas.h == m.canvas.h
    ensures GoodRegistry(r.registry)
    ensures forall y, x :: !InRect(x, y, 10, 6, 29, 24) ==> r.canvas.at(x, y) == m.canvas.at(x, y)
    ensures ChapelFurnished(r.canvas.at)
    ensures ReceptionFurnished(r.canvas.at)
    ensures BuildingRegistry(r.registry)
    ensures forall k :: k !in LITERAL_KEYS && !IsPewKey(k) ==> Lookup(r.registry, k) == Lookup(m.registry, k)
  {
    r := Chapel(m);
    var chapel := r;
    r := Reception(r);
    ChapelKept(chapel.canvas.at, r.canvas.at);
    PewsRegisteredKept(chapel.registry, r.registry);
    PriestKeyAvoids();
    BuildingFramed(m.canvas.at, chapel.canvas.at, r.canvas.at);
    BuildingKeysFramed(m.registry, chapel.registry, r.registry);
  }

  /** The chapel and the reception together write only inside the building, columns 10 to 29 of rows 6 to 24. */
  lemma BuildingFramed(a0: (int, int) -> Tile, a1: (int, int) -> Tile, a2: (int, int) -> Tile)
    requires forall y, x :: !InRect(x, y, 10, 6, 29, 17) ==> a1(x, y) == a0(x, y)
    requires forall y, x :: !InRect(x, y, 10, 17, 29, 24) ==> a2(x, y) == a1(x, y)
    ensures forall y, x :: !InRect(x, y, 10, 6, 29, 24) ==> a2(x, y) == a0(x, y)
  {
  }

  /** The chapel and the reception together register only the literal keys and the pews. */
  lemma BuildingKeysFramed(reg0: Registry, reg1: Registry, reg2: Registry)
    requires forall k :: k != "8,19" && !IsPewKey(k) ==> Lookup(reg1, k) == Lookup(reg0, k)
    requires forall k :: k !in RECEPTION_KEYS ==> Lookup(reg2, k) == Lookup(reg1, k)
    ensures forall k :: k !in LITERAL_KEYS && !IsPewKey(k) ==> Lookup(reg2, k) == Lookup(reg0, k)
  {
  }

  /** The graveyard scatter, the paths and the building, on a blank `w` by `h` grass canvas with an empty registry. */
  method Build(w: nat, h: nat, rand: (int, int) -> real) returns (m: MapState)
    requires w >= BUILD_WIDTH && h >= BUILD_HEIGHT
    ensures m.canvas.w == w && m.canvas.h == h
    ensures GoodRegistry(m.registry)
    ensures ChapelFurnished(m.canvas.at)
    ensures ReceptionFurnished(m.canvas.at)
    ensures m.canvas.at(20, 25) == PATH
    ensures Outskirts(m.canvas.at, w, h, rand)
    ensures BuildingRegistry(m.registry)
    ensures forall k :: Lookup(m.registry, k).Some? ==> k in LITERAL_KEYS || IsPewKey(k)
  {
    var c := Scatter(Blank(w, h), rand);
    c := Paths(c);
    m := Building(MapState(c, []));
  }

  /**
   Outside the building, columns 10 to 29 of rows 6 to 24, every cell of the
   `w` by `h` grid is the graveyard: path on the four paths, and elsewhere
   what the scatter made of blank grass.
   */
  ghost predicate Outskirts(at: (int, int) -> Tile, w: nat, h: nat, rand: (int, int) -> real) {
    forall y, x :: 0 <= y < h && 0 <= x < w && !InRect(x, y, 10, 6, 29, 24) ==>
      at(x, y) == if OnPath(x, y) then PATH else Scatter(Blank(w, h), rand).at(x, y)
  }

  /** The finished map: the grid the game reads and the interactable registry. */
  datatype GameMap = GameMap(w: nat, h: nat, tiles: Tiles, registry: Registry)

  /**
   The grid read cell by cell, `tiles[y][x]` at (x, y); cells off the grid read
   as grass, and no predicate above reads one.
   */
  function CellsOf(g: Tiles): (int, int) -> Tile {
    (x, y) => if 0 <= y < |g| && 0 <= x < |g[y]| then g[y][x] else GRASS
  }

  /** The rendered grid, read cell by cell, is the canvas on every cell of the grid. */
  lemma CellsOfRender(c: Canvas)
    ensures forall y, x :: 0 <= y < c.h && 0 <= x < c.w ==> CellsOf(Render(c))(x, y) == c.at(x, y)
  {
    var g := Render(c);
    forall y, x | 0 <= y < c.h && 0 <= x < c.w ensures CellsOf(g)(x, y) == c.at(x, y) {
      assert g[y][x] == c.at(x, y);
    }
  }

  /** Rendering the built canvas keeps the building: the grid reads, cell by cell, as the canvas did. */
  lemma RenderedBuilding(c: Canvas)
    requires c.w >= BUILD_WIDTH && c.h >= BUILD_HEIGHT
    requires ChapelFurnished(c.at) && ReceptionFurnished(c.at)
    ensures ChapelFurnished(CellsOf(Render(c))) && ReceptionFurnished(CellsOf(Render(c)))
  {
    RenderedChapel(c);
    RenderedReception(c);
  }

  /** Rendering keeps the furnished chapel. */
  lemma RenderedChapel(c: Canvas)
    requires c.w >= BUILD_WIDTH && c.h >= BUILD_HEIGHT
    requires ChapelFurnished(c.at)
    ensures ChapelFurnished(CellsOf(Render(c)))
  {
    CellsOfRender(c);
    ChapelKept(c.at, CellsOf(Render(c)));
  }

  /** Rendering keeps the furnished reception. */
  lemma RenderedReception(c: Canvas)
    requires c.w >= BUILD_WIDTH && c.h >= BUILD_HEIGHT
    requires ReceptionFurnished(c.at)
    ensures ReceptionFurnished(CellsOf(Render(c)))
  {
    CellsOfRender(c);
    ReceptionKept(c.at, CellsOf(Render(c)));
  }

  /** The bottom path, the notice board's backing wall and the pews, read off the rendered grid. */
  lemma RenderedCells(c: Canvas)
    requires c.w >= BUILD_WIDTH && c.h >= BUILD_HEIGHT
    requires c.at(20, 25) == PATH && c.at(15, 17) == WALL
    requires PewsPlaced(c.at)
    ensures Render(c)[25][20] == PATH && Render(c)[17][15] == WALL
    ensures forall y, x :: PewRow(y) && PewColumn(x) ==> Render(c)[y][x] == BENCH
  {
  }

  /** Rendering keeps the graveyard around the building. */
  lemma RenderedOutskirts(c: Canvas, rand: (int, int) -> real)
    requires Outskirts(c.at, c.w, c.h, rand)
    ensures Outskirts(CellsOf(Render(c)), c.w, c.h, rand)
  {
    CellsOfRender(c);
  }

  /**
   `generateMap()` on a `w` by `h` grid: scatter, paths, chapel, reception.
   `rand(y, x)` is the random number the scatter draws for cell (x, y).

   Later writes win: row 17 is the divider wall from column 10 to 29 with the
   double door at columns 19 and 20. The receptionist is registered under
   "25,20", which the resolver reads as row 25, column 20, a cell of the southern
   path rather than the desk at row 20, columns 24 and 25; the notice board's
   "16,15" is the chapel cell just north of its backing wall at row 17, column 15.
   */
  method GenerateMap(w: nat, h: nat, rand: (int, int) -> real) returns (g: GameMap)
    requires w >= BUILD_WIDTH && h >= BUILD_HEIGHT
    ensures g.w == w && g.h == h && WellFormed(g.tiles, w, h)
    ensures g.tiles[25][20] == PATH && g.tiles[17][15] == WALL
    ensures forall y, x :: PewRow(y) && PewColumn(x) ==> g.tiles[y][x] == BENCH
    ensures UniqueKeys(g.registry)
    ensures ChairIdsMatchKeys(g.registry)
    ensures ChapelFurnished(CellsOf(g.tiles))
    ensures ReceptionFurnished(CellsOf(g.tiles))
    ensures BuildingRegistry(g.registry)
    ensures Outskirts(CellsOf(g.tiles), w, h, rand)
    ensures forall k :: Lookup(g.registry, k).Some? ==> k in LITERAL_KEYS || IsPewKey(k)
  {
    var m := Build(w, h, rand);
    g := GameMap(w, h, Render(m.canvas), m.registry);
    assert m.canvas.at(15, 17) == WALL;
    RenderedCells(m.canvas);
    RenderedBuilding(m.canvas);
    RenderedOutskirts(m.canvas, rand);
  }

  /**
   Sitting on a chair of a registry built this way snaps the player to that
   chair's own cell: the id parser recovers the row and column of the key.
   */
  lemma SitOnRegisteredChair(reg: Registry, j: int, p: Player)
    requires ChairIdsMatchKeys(reg)
    requires 0 <= j < |reg| && reg[j].item.kind == Chair
    ensures ParseKey(reg[j].key).Some?
    ensures var (row, col) := ParseKey(reg[j].key).value;
      Interaction.Dispatch(p, reg[j].item).player.pos == Pos(col * TILE_SIZE, row * TILE_SIZE - Movement.STAND_NUDGE)
  {
    assert ChairKeyed(reg[j]);
  }

  /**
   The grid types.ts declares is too small for the build: the second path
   rectangle reaches row 29 of a 15-row grid, where `tiles[24]` does not exist.
   */
  lemma DeclaredSizeTooSmall()
    ensures !RectFits(MAP_WIDTH, MAP_HEIGHT, 18, 24, 21, 29)
    ensures RectFits(BUILD_WIDTH, BUILD_HEIGHT, 18, 24, 21, 29)
    ensures MAP_WIDTH < BUILD_WIDTH && MAP_HEIGHT < BUILD_HEIGHT
  {
  }
}

=== FILE: movement.dfy ===
/**
 The per-frame movement step of App.tsx: held keys become a direction, the
 displacement is resolved against the grid one axis at a time with a
 four-corner hitbox test, the facing follows the dominant axis, and nothing
 moves while a modal is open or the player sits.
 */
module Movement {
  import opened Types
  import opened Grid
  import opened Text

  const MOVEMENT_SPEED: int := 4
  const PLAYER_HITBOX_SIZE: int := 24
  /** `(TILE_SIZE - PLAYER_HITBOX_SIZE) / 2`. */
  const HITBOX_OFFSET: int := 12
  /** How far standing up from a chair moves the player down. */
  const STAND_NUDGE: int := 10

  /** The (lower-cased) keys whose press breaks sitting. */
  const MOVE_KEYS: set<string> := {"w", "a", "s", "d", "arrowup", "arrowdown", "arrowleft", "arrowright"}

  datatype Vec = Vec(dx: int, dy: int)

  /** A cell stops the player when it is outside the map or a wall. */
  predicate CellBlocks(g: Tiles, w: nat, h: nat, col: int, row: int)
    requires WellFormed(g, w, h)
  {
    TileAt(g, w, h, col, row).None? || TileAt(g, w, h, col, row) == Some(WALL)
  }

  /** Whether the hitbox sample point `(px, py)` lies in a blocking cell (`Math.floor(p / TILE_SIZE)`). */
  predicate PointBlocks(g: Tiles, w: nat, h: nat, px: int, py: int)
    requires WellFormed(g, w, h)
  {
    CellBlocks(g, w, h, px / TILE_SIZE, py / TILE_SIZE)
  }

  /**
   `checkCollision(x, y)`: the hitbox spans x+12..x+36 horizontally and
   y+24..y+44 vertically; the position is blocked when one of its corners is.
   */
  predicate Blocked(g: Tiles, w: nat, h: nat, x: int, y: int)
    requires WellFormed(g, w, h)
    ensures x + HITBOX_OFFSET < 0 || x + TILE_SIZE - HITBOX_OFFSET >= w * TILE_SIZE ==> Blocked(g, w, h, x, y)
    ensures y + TILE_SIZE / 2 < 0 || y + TILE_SIZE - 4 >= h * TILE_SIZE ==> Blocked(g, w, h, x, y)
  {
    var left := x + HITBOX_OFFSET;
    var right := x + TILE_SIZE - HITBOX_OFFSET;
    var top := y + TILE_SIZE / 2;
    var bottom := y + TILE_SIZE - 4;
    PointBlocks(g, w, h, left, top) || PointBlocks(g, w, h, right, top)
    || PointBlocks(g, w, h, left, bottom) || PointBlocks(g, w, h, right, bottom)
  }

  /** The columns (or rows) a pixel span `lo..hi` touches. */
  predicate Spans(lo: int, hi: int, cell: int) {
    lo / TILE_SIZE <= cell <= hi / TILE_SIZE
  }

  /**
   Sampling four corners is exact: because the hitbox is narrower and shorter
   than a tile, the position is blocked exactly when some blocking cell
   overlaps the hitbox rectangle.
   */
  lemma BlockedIffHitboxMeetsBlockingCell(g: Tiles, w: nat, h: nat, x: int, y: int)
    requires WellFormed(g, w, h)
    ensures Blocked(g, w, h, x, y) <==>
      exists col, row :: Spans(x + 12, x + 36, col) && Spans(y + 24, y + 44, row) && CellBlocks(g, w, h, col, row)
  {
    var c0, c1 := (x + 12) / 48, (x + 36) / 48;
    var r0, r1 := (y + 24) / 48, (y + 44) / 48;
    assert c1 <= c0 + 1;
    assert r1 <= r0 + 1;
    if Blocked(g, w, h, x, y) {
      if CellBlocks(g, w, h, c0, r0) {
        assert Spans(x + 12, x + 36, c0) && Spans(y + 24, y + 44, r0);
      } else if CellBlocks(g, w, h, c1, r0) {
        assert Spans(x + 12, x + 36, c1) && Spans(y + 24, y + 44, r0);
      } else if CellBlocks(g, w, h, c0, r1) {
        assert Spans(x + 12, x + 36, c0) && Spans(y + 24, y + 44, r1);
      } else {
        assert Spans(x + 12, x + 36, c1) && Spans(y + 24, y + 44, r1);
      }
    }
    if exists col, row :: Spans(x + 12, x + 36, col) && Spans(y + 24, y + 44, row) && CellBlocks(g, w, h, col, row) {
      var col, row :| Spans(x + 12, x + 36, col) && Spans(y + 24, y + 44, row) && CellBlocks(g, w, h, col, row);
      assert col == c0 || col == c1;
      assert row == r0 || row == r1;
    }
  }

  /** Two grids that agree on where the walls are agree on every collision test: no other tile kind blocks. */
  lemma OnlyWallsMatter(g1: Tiles, g2: Tiles, w: nat, h: nat, x: int, y: int)
    requires WellFormed(g1, w, h) && WellFormed(g2, w, h)
    requires forall row, col :: 0 <= row < h && 0 <= col < w ==> (g1[row][col] == WALL <==> g2[row][col] == WALL)
    ensures Blocked(g1, w, h, x, y) <==> Blocked(g2, w, h, x, y)
  {
  }

  /** The direction the held keys ask for, one unit per axis; opposing keys cancel. */
  function Direction(keys: set<string>): (v: Vec)
    ensures -1 <= v.dx <= 1 && -1 <= v.dy <= 1
    ensures v.dx == 1 <==> ("arrowright" in keys || "d" in keys) && !("arrowleft" in keys || "a" in keys)
    ensures v.dx == -1 <==> ("arrowleft" in keys || "a" in keys) && !("arrowright" in keys || "d" in keys)
    ensures v.dy == 1 <==> ("arrowdown" in keys || "s" in keys) && !("arrowup" in keys || "w" in keys)
    ensures v.dy == -1 <==> ("arrowup" in keys || "w" in keys) && !("arrowdown" in keys || "s" in keys)
  {
    var up := if "arrowup" in keys || "w" in keys then -1 else 0;
    var down := if "arrowdown" in keys || "s" in keys then 1 else 0;
    var left := if "arrowleft" in keys || "a" in keys then -1 else 0;
    var right := if "arrowright" in keys || "d" in keys then 1 else 0;
    Vec(left + right, up + down)
  }

  /** A single held key moves the player exactly when it is one of the keys that break sitting. */
  lemma MoveKeysAreDirectionKeys(k: string)
    ensures Direction({k}) != Vec(0, 0) <==> k in MOVE_KEYS
  {
  }

  /**
   Axis-separated resolution: try the horizontal move at the old row, then the
   vertical move at the resulting column; a move that collides is dropped.
   */
  function Resolve(g: Tiles, w: nat, h: nat, p: Pos, v: Vec): (r: Pos)
    requires WellFormed(g, w, h)
    ensures r.x == p.x || r.x == p.x + v.dx
    ensures r.y == p.y || r.y == p.y + v.dy
    ensures !Blocked(g, w, h, p.x + v.dx, p.y) ==> r.x == p.x + v.dx
    ensures Blocked(g, w, h, p.x + v.dx, p.y) ==> r.x == p.x
    ensures !Blocked(g, w, h, r.x, p.y + v.dy) ==> r.y == p.y + v.dy
    ensures Blocked(g, w, h, r.x, p.y + v.dy) ==> r.y == p.y
    ensures !Blocked(g, w, h, p.x, p.y) ==> !Blocked(g, w, h, r.x, r.y)
  {
    var fx := if !Blocked(g, w, h, p.x + v.dx, p.y) then p.x + v.dx else p.x;
    var fy := if !Blocked(g, w, h, fx, p.y + v.dy) then p.y + v.dy else p.y;
    Pos(fx, fy)
  }

  /** Sliding along a wall: a horizontal move into a wall keeps the column but still moves vertically when free. */
  lemma SlideAlongWall(g: Tiles, w: nat, h: nat, p: Pos, v: Vec)
    requires WellFormed(g, w, h)
    requires Blocked(g, w, h, p.x + v.dx, p.y) && v.dx != 0
    requires !Blocked(g, w, h, p.x, p.y + v.dy)
    ensures Resolve(g, w, h, p, v) == Pos(p.x, p.y + v.dy)
  {
  }

  function Abs(n: int): nat {
    if n < 0 then -n else n
  }

  /** The facing rule: the dominant axis wins, horizontal only when strictly larger. */
  function Face(f: Facing, dx: int, dy: int): (r: Facing)
    ensures Abs(dx) > Abs(dy) ==> r == (if dx > 0 then Right else Left)
    ensures Abs(dx) <= Abs(dy) && dy != 0 ==> r == (if dy > 0 then Down else Up)
    ensures dx == 0 && dy == 0 ==> r == f
  {
    if Abs(dx) > Abs(dy) then (if dx > 0 then Right else Left)
    else if dy != 0 then (if dy > 0 then Down else Up)
    else f
  }

  /**
   Scaling a displacement by a positive factor does not change the facing, so the
   facing of the normalised displacement is the facing of the raw key direction.
   */
  lemma FaceScaleInvariant(f: Facing, dx: int, dy: int, k: int)
    requires k > 0
    ensures Face(f, k * dx, k * dy) == Face(f, dx, dy)
  {
    ScaleAbs(dx, k);
    ScaleAbs(dy, k);
    ScaleSign(dx, k);
    ScaleSign(dy, k);
    ScaleOrder(Abs(dx), Abs(dy), k);
  }

  lemma ScaleAbs(a: int, k: int)
    requires k > 0
    ensures Abs(k * a) == k * Abs(a)
  {
    if a < 0 {
      assert k * a == -(k * -a);
    }
  }

  lemma ScaleSign(a: int, k: int)
    requires k > 0
    ensures a > 0 <==> k * a > 0
    ensures a == 0 <==> k * a == 0
  {
    if a > 0 {
      assert k * a >= a;
    } else if a < 0 {
      assert k * -a >= -a;
    }
  }

  lemma ScaleOrder(a: int, b: int, k: int)
    requires k > 0
    ensures a > b <==> k * a > k * b
  {
    ScaleSign(a - b, k);
    assert k * (a - b) == k * a - k * b;
  }

  /** The per-axis displacement of a tick; `diagStep` stands for `MOVEMENT_SPEED / sqrt 2`. */
  function Velocity(d: Vec, diagStep: nat): (r: Vec)
    requires -1 <= d.dx <= 1 && -1 <= d.dy <= 1
    ensures (d.dx == 0) != (d.dy == 0) ==> Abs(r.dx) + Abs(r.dy) == MOVEMENT_SPEED
    ensures d.dx != 0 && d.dy != 0 ==> Abs(r.dx) == diagStep && Abs(r.dy) == diagStep
    ensures d.dx == 0 ==> r.dx == 0
    ensures d.dy == 0 ==> r.dy == 0
    ensures diagStep > 0 ==> (r.dx > 0 <==> d.dx > 0) && (r.dx < 0 <==> d.dx < 0)
    ensures diagStep > 0 ==> (r.dy > 0 <==> d.dy > 0) && (r.dy < 0 <==> d.dy < 0)
  {
    var s := if d.dx != 0 && d.dy != 0 then diagStep else MOVEMENT_SPEED;
    Vec(d.dx * s, d.dy * s)
  }

  /**
   The source picks the facing from the normalised vector; the model picks it
   from the unit direction. Both give the same facing, since normalising only
   scales the vector by a positive factor.
   */
  lemma VelocityFacing(f: Facing, d: Vec, diagStep: nat)
    requires -1 <= d.dx <= 1 && -1 <= d.dy <= 1
    requires diagStep > 0
    ensures Face(f, Velocity(d, diagStep).dx, Velocity(d, diagStep).dy) == Face(f, d.dx, d.dy)
  {
    var s := if d.dx != 0 && d.dy != 0 then diagStep else MOVEMENT_SPEED;
    assert Velocity(d, diagStep) == Vec(s * d.dx, s * d.dy);
    FaceScaleInvariant(f, d.dx, d.dy, s);
  }

  /**
   `updateGame`: one animation frame. Frozen while a modal is open or the
   player sits; no input only clears the moving flag.
   */
  function Tick(p: Player, keys: set<string>, modalOpen: bool, g: Tiles, w: nat, h: nat, diagStep: nat): (r: Player)
    requires WellFormed(g, w, h)
    ensures modalOpen || p.sitting ==> r == p
    ensures !modalOpen && !p.sitting && Direction(keys) == Vec(0, 0) ==> r == p.(moving := false)
    ensures !modalOpen && !p.sitting && Direction(keys) != Vec(0, 0) ==>
      && r.moving && r.sitting == p.sitting
      && r.facing == Face(p.facing, Direction(keys).dx, Direction(keys).dy)
      && r.pos == Resolve(g, w, h, p.pos, Velocity(Direction(keys), diagStep))
    ensures !Blocked(g, w, h, p.pos.x, p.pos.y) ==> !Blocked(g, w, h, r.pos.x, r.pos.y)
  {
    if modalOpen || p.sitting then p
    else
      var d := Direction(keys);
      if d == Vec(0, 0) then p.(moving := false)
      else
        var v := Velocity(d, diagStep);
        var pos := Resolve(g, w, h, p.pos, v);
        p.(pos := pos, facing := Face(p.facing, d.dx, d.dy), moving := true)
  }

  /**
   `handleKeyDown`: the key joins the held set (lower-cased), and a movement key
   pressed while sitting stands the player up, nudged 10 pixels down.
   */
  function KeyDown(p: Player, keys: set<string>, key: string): (r: (Player, set<string>))
    ensures r.1 == keys + {Lower(key)}
    ensures p.sitting && Lower(key) in MOVE_KEYS ==>
      r.0 == p.(sitting := false, pos := Pos(p.pos.x, p.pos.y + STAND_NUDGE))
    ensures !(p.sitting && Lower(key) in MOVE_KEYS) ==> r.0 == p
  {
    var k := Lower(key);
    var p' := if p.sitting && k in MOVE_KEYS then p.(sitting := false, pos := Pos(p.pos.x, p.pos.y + STAND_NUDGE)) else p;
    (p', keys + {k})
  }

  /** `handleKeyUp`: the key is no longer held. */
  function KeyUp(keys: set<string>, key: string): (r: set<string>)
    ensures Lower(key) !in r
    ensures forall k :: k in keys && k != Lower(key) ==> k in r
    ensures r <= keys
  {
    keys - {Lower(key)}
  }

  /** Releasing a key that was not held before its press restores the held set. */
  lemma KeyUpUndoesKeyDown(p: Player, keys: set<string>, key: string)
    requires Lower(key) !in keys
    ensures KeyUp(KeyDown(p, keys, key).1, key) == keys
  {
  }
}

=== FILE: text.dfy ===
/**
 The string handling the simulation relies on: decimal formatting of cell
 coordinates (template literals such as `${y},${x}`), the `Number` conversion of
 a field, `String.split` on a one-character separator, and the ASCII part of
 `toLowerCase`.
 */
module Text {
  import opened Types

  predicate IsDigit(c: char) {
    '0' <= c <= '9'
  }

  predicate AllDigits(s: string) {
    forall i :: 0 <= i < |s| ==> IsDigit(s[i])
  }

  function DigitChar(d: int): (c: char)
    requires 0 <= d < 10
    ensures IsDigit(c)
  {
    (('0' as int) + d) as char
  }

  function DigitValue(c: char): int
    requires IsDigit(c)
  {
    c as int - '0' as int
  }

  /** Decimal rendering of a non-negative integer, as a template literal writes it. */
  function NatToString(n: nat): (s: string)
    ensures |s| > 0 && AllDigits(s)
    decreases n
  {
    if n < 10 then [DigitChar(n)] else NatToString(n / 10) + [DigitChar(n % 10)]
  }

  /** A two-digit number renders as its tens digit followed by its units digit. */
  lemma TwoDigits(n: nat)
    requires 10 <= n < 100
    ensures NatToString(n) == [DigitChar(n / 10), DigitChar(n % 10)]
  {
  }

  /** Value of a digit string, most significant digit first. */
  function DigitsValue(s: string): nat
    requires AllDigits(s)
    decreases |s|
  {
    if |s| == 0 then 0 else DigitsValue(s[..|s| - 1]) * 10 + DigitValue(s[|s| - 1])
  }

  /**
   `Number(s)` for the strings the simulation produces: a non-empty run of
   decimal digits gives its value; every other string is treated as NaN (None).
   */
  function ParseNat(s: string): (r: Option<nat>)
    ensures r.Some? <==> |s| > 0 && AllDigits(s)
  {
    if |s| > 0 && AllDigits(s) then Some(DigitsValue(s)) else None
  }

  /** Formatting a coordinate and reading it back gives the coordinate. */
  lemma {:induction false} ParseFormatRoundTrip(n: nat)
    ensures ParseNat(NatToString(n)) == Some(n)
    decreases n
  {
    var s := NatToString(n);
    if n >= 10 {
      var p := NatToString(n / 10);
      ParseFormatRoundTrip(n / 10);
      assert s == p + [DigitChar(n % 10)];
      assert s[..|s| - 1] == p;
      assert DigitsValue(s) == DigitsValue(p) * 10 + n % 10;
    } else {
      assert s[..|s| - 1] == [];
    }
  }

  /** Distinct coordinates never render to the same string. */
  lemma FormatInjective(a: nat, b: nat)
    requires NatToString(a) == NatToString(b)
    ensures a == b
  {
    ParseFormatRoundTrip(a);
    ParseFormatRoundTrip(b);
  }

  /**
   `s.split(c)`: the maximal pieces of `s` between occurrences of `c`; an empty
   string gives one empty piece, and adjacent separators give empty pieces.
   */
  function Split(s: string, c: char): (r: seq<string>)
    ensures |r| >= 1
    ensures forall i :: 0 <= i < |r| ==> c !in r[i]
    decreases |s|
  {
    if |s| == 0 then [""]
    else
      var rest := Split(s[1..], c);
      if s[0] == c then [""] + rest
      else [[s[0]] + rest[0]] + rest[1..]
  }

  /** `parts.join(c)`, the reference against which Split is checked. */
  function Join(parts: seq<string>, c: char): string
    requires |parts| >= 1
    decreases |parts|
  {
    if |parts| == 1 then parts[0] else parts[0] + [c] + Join(parts[1..], c)
  }

  /** Splitting loses nothing: joining the pieces back gives the original string. */
  lemma {:induction false} JoinSplit(s: string, c: char)
    ensures Join(Split(s, c), c) == s
    decreases |s|
  {
    if |s| > 0 {
      var rest := Split(s[1..], c);
      JoinSplit(s[1..], c);
      if s[0] == c {
        assert Split(s, c)[1..] == rest;
        assert s == [c] + s[1..];
      } else {
        var r := Split(s, c);
        if |rest| == 1 {
          assert r == [[s[0]] + rest[0]];
        } else {
          assert r[1..] == rest[1..];
          assert Join(rest, c) == rest[0] + [c] + Join(rest[1..], c);
        }
        assert s == [s[0]] + s[1..];
      }
    }
  }

  /** A string without the separator is a single piece. */
  lemma {:induction false} SplitNoSeparator(a: string, c: char)
    requires c !in a
    ensures Split(a, c) == [a]
    decreases |a|
  {
    if |a| > 0 {
      SplitNoSeparator(a[1..], c);
      assert [a[0]] + a[1..] == a;
    }
  }

  /** The first separator ends the first piece. */
  lemma {:induction false} SplitAtFirst(a: string, b: string, c: char)
    requires c !in a
    ensures Split(a + [c] + b, c) == [a] + Split(b, c)
    decreases |a|
  {
    var s := a + [c] + b;
    if |a| == 0 {
      assert s[1..] == b;
    } else {
      assert s[1..] == a[1..] + [c] + b;
      SplitAtFirst(a[1..], b, c);
      assert [a[0]] + a[1..] == a;
    }
  }

  /** Splitting a join of separator-free pieces gives the pieces back. */
  lemma {:induction false} SplitJoin(parts: seq<string>, c: char)
    requires |parts| >= 1
    requires forall i :: 0 <= i < |parts| ==> c !in parts[i]
    ensures Split(Join(parts, c), c) == parts
    decreases |parts|
  {
    if |parts| == 1 {
      SplitNoSeparator(parts[0], c);
    } else {
      SplitJoin(parts[1..], c);
      SplitAtFirst(parts[0], Join(parts[1..], c), c);
      assert [parts[0]] + parts[1..] == parts;
    }
  }

  /** A digit string never contains a non-digit separator. */
  lemma DigitsExclude(s: string, c: char)
    requires AllDigits(s)
    requires !IsDigit(c)
    ensures c !in s
  {
  }

  function LowerChar(ch: char): char {
    if 'A' <= ch <= 'Z' then (ch as int + 32) as char else ch
  }

  /** `toLowerCase` restricted to ASCII letters. */
  function Lower(s: string): (r: string)
    ensures |r| == |s|
  {
    seq(|s|, i requires 0 <= i < |s| => LowerChar(s[i]))
  }
}

=== FILE: types.dfy ===
/**
 The shared data model of the funeral-home simulation: tiles, interactables,
 funeral records, the director phase and the player.
 */
module Types {

  datatype Option<+T> = None | Some(value: T)

  /** Pixel size of one grid cell. */
  const TILE_SIZE: int := 48

  /** Terrain and object kinds written by the map generator and read by the
      collision test. Only WALL blocks movement. */
  datatype Tile =
    | FLOOR | WALL | GRASS | DOOR | TOMBSTONE | ALTAR | WATER | CHAIR
    | CARPET | PATH | TREE | FLOWER | CANDLE | DESK | BENCH

  /** The interactable kinds the generator registers and the resolver dispatches on. */
  datatype Kind = Chair | Priest | Receptionist | NoticeBoard

  /** An interactable object; `message` is optional, as in the source. */
  datatype Interactable = Interactable(kind: Kind, id: string, message: Option<string>)

  /** One funeral. `id` and `timestamp` come from the clock and are parameters here. */
  datatype Record = Record(
    id: string,
    deceasedName: string,
    causeOfDeath: string,
    eulogy: string,
    timestamp: int,
    attendees: int)

  datatype Phase = Idle | Preaching | Amen | Burial

  datatype Facing = Up | Down | Left | Right

  datatype Pos = Pos(x: int, y: int)

  /** The player; the appearance fields are presentation only and left out. */
  datatype Player = Player(pos: Pos, facing: Facing, moving: bool, sitting: bool)
}
